=== FILE: README.md ===
# gobuild, modelled in Dafny

gobuild is a small build runner. A build configuration lists jobs. Each job
has a name, a docker image, a list of shell script lines and an environment.
The build environment applies to all jobs. For every job, in order, the
runner:

- writes an entry-point shell script into a `.gobuild` folder under the
  working directory;
- composes the job's environment from the build environment, the job
  environment and the host environment, and writes it to an env file;
- runs `docker run` with the working directory mounted at `/var/gobuild`,
  the env file and the script as entry point;
- records the job's status (`NotRun`, `OK`, `Failed`,
  `EntryPointCreationError`) and its duration in a status list.

The build stops at the first failing job. Container output goes through a
line-buffering log writer that tags every completed line with
`DOCKER <job> | `.

The repository also keeps an earlier variant under `app/`. It has no
environment handling, its script has a different third line, and its log
writer has a value receiver, so it forgets partial lines between writes.

The model takes this logic out of its I/O:

- Reading the working directory, creating folders and writing files are
  `Outcome`/`Result` parameters.
- The container run is an `Outcome` parameter, and the clock is an elapsed
  text parameter.
- The host environment is a parameter: the raw `KEY=VALUE` list, or the map
  already read from it.
- Go's map iteration order is a parameter `order` that lists every key once.

Modules, one file each:

| module | file | models |
|---|---|---|
| `Results` | results.dfy | `Option`, `Result` and `Outcome` |
| `Lines` | lines.dfy | splitting a byte or char stream at a separator, shared by both log writers and the script/env-file line views |
| `EnvironmentComposer` | environment_composer.dfy | `os.Expand`, `ExpandEnv`, `MergeEnv`, `GetEnvMap`, `GetEnvArray` and the per-job resolution pipeline |
| `Config` | config.dfy | `BuildJob`, `BuildConfig` |
| `ScriptMaterializer` | script_materializer.dfy | artifact names, entry-point script text and env-file text |
| `JobStatusTracker` | job_status_tracker.dfy | the build context, `NewBuildContext`, `StartJob`, `FinishJob` |
| `BuildOrchestrator` | build_orchestrator.dfy | docker arguments, `ExecuteDockerJob` with its deferred finish, `ExecuteBuild` |
| `LogRedirector` | log_redirector.dfy | the `LogWriter` whose buffer persists between writes |
| `AppBuild` | app_build.dfy | the `app/` variant's names, context, script, docker arguments and sequencing |
| `AppLogRedirector` | app_log_redirector.dfy | the `app/` variant's value-receiver `LogWriter` |

## Model

| member | source | states |
|---|---|---|
| Lines.Feed | log_writer.go:17-28 | Feeding bytes to a buffered line yields one completed line per separator. The completed lines, each followed by the separator, and then the new buffer, spell out exactly the old buffer followed by the input. When the incoming buffer holds no separator, neither does any completed line or the new buffer. |
| Lines.FeedSnoc | log_writer.go:18-26 | One more byte either completes the buffered line (a newline) or is appended to the buffer (any other byte). |
| Lines.FeedConcat | log_writer.go:17-28 | Feeding `a + b` produces the lines of `a` and then the lines of `b` fed after `a`'s leftover buffer. The final buffer is the same either way. |
| Lines.FeedTerminated | log_writer.go:18-26 | Feeding separator-terminated lines with no separator inside recovers exactly those lines and an empty buffer. |
| Lines.SplitUnique | log_writer.go:18-26 | A stream has only one decomposition into separator-free terminated lines plus a separator-free tail. |
| Lines.TerminatedAppend | log_writer.go:18-26 | Joining two groups of terminated lines gives the two texts concatenated. |
| Lines.CountAbsent | log_writer.go:18-26 | Input with no newline completes no line. |
| EnvironmentComposer.BraceClose | main.go:293 | Finds the first `}` after `${`, or the end of the text when there is none. |
| EnvironmentComposer.AlnumEnd | main.go:293 | Finds the end of a bare `$NAME` run of letters, digits and underscores. |
| EnvironmentComposer.GetShellName | main.go:293 | The placeholder name read after a `$` never consumes more text than is there. A non-empty name consumes at least one character. |
| EnvironmentComposer.Lookup | main.go:293 | The closure's `otherEnv[key]` read: a missing key reads as the empty string. `ExpandBraced` and `ExpandMissing` state its use. |
| EnvironmentComposer.Expand | main.go:293 | `os.Expand` over the full placeholder grammar. A value with no `$` is unchanged; `ExpandBraced`, `ExpandBare` and `ExpandMissing` state the placeholder cases. |
| EnvironmentComposer.ExpandLiteralPrefix | main.go:293 | Text without `$` passes through expansion unchanged, in front of whatever follows. |
| EnvironmentComposer.ExpandLiteral | main.go:293 | A value with no `$` expands to itself. |
| EnvironmentComposer.ExpandBraced | main.go:293 | `${NAME}` is replaced by the lookup's value for NAME, and expansion continues after the brace. |
| EnvironmentComposer.ExpandBare | main.go:293 | `$NAME` followed by a non-name character is replaced by the lookup's value for NAME. |
| EnvironmentComposer.ExpandMissing | main.go:293 | A placeholder naming a key absent from the lookup becomes the empty string. |
| EnvironmentComposer.ExpandEnv | main.go:289-298 | The result has exactly the keys of `env`. Each value is its expansion against the other map. A value with no `$` is unchanged. |
| EnvironmentComposer.ExpandLiteralValues | main.go:289-298 | Expanding a map leaves every `$`-free value as it was. |
| EnvironmentComposer.MergeEnv | main.go:300-315 | The keys are the union of both maps. `env2`'s value wins for a shared key. A key only in `env1` keeps `env1`'s value. |
| EnvironmentComposer.ResolveJobEnv | main.go:216-221 | A job's environment has the keys of the build and job environments. A job value is expanded first against the host-expanded build environment, then against the host. A build-only value is expanded against the host. |
| EnvironmentComposer.BuildVarIgnoresJobEnv | main.go:216-221 | A build variable the job does not override resolves the same whatever the job environment holds. |
| EnvironmentComposer.JobSeesBuildVar | main.go:216-221 | A job value `${NAME}rest`, where NAME is a `$`-free build variable, resolves to the build value followed by `rest`. |
| EnvironmentComposer.HostOnlyVarBlankedInJob | main.go:216-221 | A job's own `${NAME}rest`, where NAME is no build variable and `rest` has no `$`, resolves to `rest`: the first pass blanks the placeholder even when the host defines NAME. |
| EnvironmentComposer.Before | main.go:321 | The prefix of a text up to the first occurrence of a character, which it does not contain. |
| EnvironmentComposer.KeyOf | main.go:321-322 | `strings.Split(v, "=")[0]`: the prefix of the entry before its first `=`, all of it when there is no `=`; when shorter than the entry, the next character is `=`. |
| EnvironmentComposer.ValueOf | main.go:321-322 | `strings.Split(v, "=")[1]`: the text right after the first `=`, up to the next `=` or the end. |
| EnvironmentComposer.GetEnvMap | main.go:317-326 | The first entry with no `=` is the error, standing for the Go panic. Otherwise the keys are exactly the texts before the first `=`. Each key maps to the text between the first and any second `=` of its last entry. |
| EnvironmentComposer.StepOk | main.go:320-323 | Reading one more well-formed entry sets its key to its value and keeps the reading correct. |
| EnvironmentComposer.StepMalformed | main.go:320-323 | An entry with no `=` after well-formed ones makes that entry the error. |
| EnvironmentComposer.StepAfterError | main.go:320-323 | Once an entry is malformed, later entries change nothing. |
| EnvironmentComposer.ValueCutAtSecondEquals | main.go:321-322 | `A=b=c` is read as `A` mapped to `b`. |
| EnvironmentComposer.EnvEntry | main.go:333 | The `%s=%s` text of one variable. `EntryParts` shows it reads back as the same key and value when neither holds `=`. |
| EnvironmentComposer.EntryParts | main.go:321-333 | An entry written as `KEY=VALUE` with no `=` in key or value reads back as that key and value. |
| EnvironmentComposer.EnvEntries | main.go:333 | The `KEY=VALUE` text of every key, in the given iteration order. |
| EnvironmentComposer.GetEnvArray | main.go:328-337 | The array has one slot per variable. The first slot holds the `KEY=VALUE` text of some variable, and every other slot stays empty, because the index is never advanced. |
| EnvironmentComposer.FillSlot | main.go:331-334 | The loop writes only the fixed slot, which ends with the entry of the last key iterated. |
| EnvironmentComposer.EnvEntriesRoundTrip | main.go:317-337 | Reading back the `KEY=VALUE` entries of an environment with no `=` in keys or values recovers that environment. |
| EnvironmentComposer.EnvArrayNotReadable | main.go:317-337 | With two or more variables, reading back what `GetEnvArray` produced fails on its empty slots. |
| EnvironmentComposer.LastIndexOf | main.go:317-326 | The last position of a key in a list. |
| ScriptMaterializer.Sanitize | main.go:24-30 | Every space becomes `-`, every other character is kept, and the result has no space. |
| ScriptMaterializer.SanitizeIdempotent | main.go:24-30 | Sanitizing twice is sanitizing once. |
| ScriptMaterializer.SanitizeCollision | main.go:24-30 | Two different job names can share artifact names: `a b` and `a-b`. |
| ScriptMaterializer.EntryPointScriptName | main.go:24-26 | The job name with spaces turned into `-`, then `.sh`; no space remains. |
| ScriptMaterializer.EnvFileName | main.go:28-30 | The job name with spaces turned into `-`, then `.env`; no space remains. |
| ScriptMaterializer.ArtifactNamesShareStem | main.go:24-30 | A job's script and env file share the stem. |
| ScriptMaterializer.Step | main.go:249-251 | The traced line `echo /# s` and the command `s`, each newline-terminated. `StepsAreLines` states the lines. |
| ScriptMaterializer.Steps | main.go:248-252 | The script part is empty or ends in a newline. |
| ScriptMaterializer.StepLines | main.go:248-252 | Two lines per script line, in order: `echo /# s`, then `s`. |
| ScriptMaterializer.StepsAreLines | main.go:248-252 | The script part is exactly those lines, each newline-terminated. |
| ScriptMaterializer.Header | main.go:242-246 | The four opening lines of the script. `HeaderIsLines` states them line by line. |
| ScriptMaterializer.HeaderIsLines | main.go:242-247 | The header is exactly `#!/bin/sh`, `set -e`, `echo /# cd D`, `cd D`, each newline-terminated. |
| ScriptMaterializer.EntryPointScript | main.go:237-252 | The script starts with the shebang and `set -e` and ends with a newline. |
| ScriptMaterializer.ScriptLinesFree | main.go:242-252 | When no script line and no work folder holds a newline, no script line does. |
| ScriptMaterializer.EntryPointScriptLines | main.go:237-252 | Split at newlines, the script is exactly the four header lines then the two lines per script line, with nothing after the last newline. |
| ScriptMaterializer.EnvFileContent | main.go:266-273 | The env file text, one `KEY=VALUE\r\n` per key in iteration order. `EnvFileIsLines` and `EnvFileReadsBack` state its lines. |
| ScriptMaterializer.EnvFileLines | main.go:268-273 | One line per variable in iteration order: `KEY=VALUE` followed by `\r`. |
| ScriptMaterializer.EnvFileIsLines | main.go:263-282 | The env file text is exactly those lines, each newline-terminated. |
| ScriptMaterializer.EnvFileReadsBack | main.go:263-282 | Split at newlines, the env file has one CRLF line per variable and no tail. Without `=` in keys or values, its entries read back as the same environment. |
| JobStatusTracker.JoinPath | main.go:105 | `path.Join` of a clean folder and a file name. `ContainerRunsWrittenScript` states the paths it builds. |
| JobStatusTracker.NewBuildContext | main.go:94-124 | It fails exactly when reading the working directory or creating the folder fails, with that error. On success the folder is `.gobuild` under the working directory and the container folder is `/var/gobuild`. There is one `NotRun`, unmeasured entry per job, in job order and named after it. |
| JobStatusTracker.StartJob | main.go:126-129 | Only the active job changes. |
| JobStatusTracker.FirstIndexOf | main.go:133-139 | The first entry carrying the name, or the list length when none does. |
| JobStatusTracker.FinishJob | main.go:131-140 | The list keeps its length and the active job is not cleared. When no entry has the active job's name, nothing changes. |
| JobStatusTracker.FinishJobRecords | main.go:131-140 | Finishing writes the status and duration only on the first entry named after the active job. Every other entry is unchanged. |
| JobStatusTracker.FinishKeepsNames | main.go:131-140 | Finishing keeps the entries matched to the jobs by name and position. |
| BuildOrchestrator.DockerArgs | main.go:189-205 | Eight arguments: `run`, `-v` with the mount `WORKDIR:/var/gobuild` for every working directory (`/` included), `--env-file` with the file, `--entrypoint` with the script, and the image last. `ContainerRunsWrittenScript` ties the file and script to the written paths. |
| BuildOrchestrator.ContainerRunsWrittenScript | main.go:189-205 | The mount maps the working directory to the container folder. The entry point is the written script's path with the working directory replaced by the container folder. The env file is the path it is written to. This is stated for a non-empty working directory that does not end in `/`; for `/` the env-file argument `//.gobuild/x.env` differs as text from the written path `/.gobuild/x.env`. |
| BuildOrchestrator.RunJobBody | main.go:183-234 | The job body between start and deferred finish, with its status, end and docker command. `RunJobBodyCases` and `StatusMatchesEnd` state its cases. |
| BuildOrchestrator.RunJobBodyCases | main.go:176-235 | A failed script write yields `EntryPointCreationError` and no docker command. An unreadable host environment is a panic after the write. Otherwise the command carries the argument vector and the resolved environment, and the run outcome gives `Failed` or `OK`. |
| BuildOrchestrator.StatusMatchesEnd | main.go:176-235 | A job succeeds exactly when its status is `OK` without a panic. The status is `EntryPointCreationError` exactly when the script write fails. Docker is invoked exactly when the script was written and the host environment was readable. |
| BuildOrchestrator.EnvFileWriteIgnored | main.go:224 | The env-file write outcome changes nothing about the job. |
| BuildOrchestrator.ExecuteDockerJob | main.go:176-181 | The job becomes the active job. The statuses keep their length and the workspace is unchanged. The end and the command are those of the job's body. |
| BuildOrchestrator.ExecuteDockerJobRecords | main.go:177-181 | The deferred finish writes the body's status and the elapsed time on the first entry with the job's name, even after a panic. Every other entry is unchanged. |
| BuildOrchestrator.RunJobs | main.go:161-172 | Running from job `i` never launches more jobs than remain and keeps the workspace. |
| BuildOrchestrator.FirstStop | main.go:161-172 | The first job at or after `i` that does not succeed; every job before it succeeds. |
| BuildOrchestrator.RunJobsStopsHere | main.go:166-170 | A failing job is the last one attempted. Its end is the run's end. |
| BuildOrchestrator.RunJobsAttempted | main.go:161-172 | The jobs attempted are those up to and including the first failure, or all of them. |
| BuildOrchestrator.RunJobsEnd | main.go:161-173 | The run ends with the first failure's end, or succeeds when none fails. |
| BuildOrchestrator.Launched | main.go:161-172 | The commands the attempted jobs produce, in configuration order. |
| BuildOrchestrator.RunJobsCommands | main.go:161-172 | The commands issued are those of the attempted jobs, in configuration order. |
| BuildOrchestrator.OneJobStatus | main.go:176-181 | With distinct job names, running job `i` finishes entry `i` and no other. |
| BuildOrchestrator.RunJobsStatuses | main.go:160-174 | With distinct names, every attempted job's entry holds its final status and every other entry is untouched. |
| BuildOrchestrator.LaterEntriesKept | main.go:131-140 | Whatever the names, running job `i` leaves every entry after `i` as it was, since entry `i` already carries job `i`'s name. |
| BuildOrchestrator.RunJobsLeavesLaterEntries | main.go:160-174 | Whatever the names, the build from position `i` leaves every entry after the last attempted job as it was. |
| BuildOrchestrator.ExecuteBuild | main.go:160-174 | Jobs run in configuration order up to and including the first failure. The build fails exactly when some job fails, with that job's error. |
| BuildOrchestrator.ExecuteBuildStatuses | main.go:160-174 | From a fresh context with distinct names, attempted jobs carry their final status and elapsed time. Later jobs stay `NotRun`, unmeasured. |
| BuildOrchestrator.ExecuteBuildLeavesLaterJobsNotRun | main.go:160-174 | For every configuration, duplicate names included, each job after the first failure still reads `NotRun`, unmeasured, once the build returns. |
| BuildOrchestrator.FirstJobFailsExample | main.go:160-174 | When the first of two containers fails, the build returns its error and runs one container. The first job is `Failed`; the second is still `NotRun`. |
| BuildOrchestrator.DuplicateNamesCollapse | main.go:131-140 | Two jobs with the same name both finish on the first entry, so the second entry stays `NotRun`. |
| LogRedirector.AsText | log_writer.go:21 | Converting bytes to text keeps every byte's code in place. |
| LogRedirector.SetDockerJobName | log_writer.go:13-15 | The prefix becomes `DOCKER <name> | ` and the buffer is kept. |
| LogRedirector.Record | log_writer.go:21 | One log record: the prefix followed by the completed line. `Records` and `Write` state where records come from. |
| LogRedirector.Records | log_writer.go:21 | One record per completed line: the prefix followed by the line. |
| LogRedirector.RecordsAppend | log_writer.go:21 | The records of two groups of lines are the two record lists concatenated. |
| LogRedirector.Write | log_writer.go:17-28 | It reports every byte written and no error, and keeps the prefix. It emits one record per newline. The old buffer and the input are the emitted lines, newline-terminated, followed by the new buffer. |
| LogRedirector.WriteDeterminesRecords | log_writer.go:17-28 | Any decomposition of the buffered input into newline-free lines and tail is the one the writer emits and keeps. |
| LogRedirector.WriteBytes | log_writer.go:17-28 | The byte-by-byte loop computes the same records and buffer as the whole-input definition. |
| LogRedirector.ChunkingInvariance | log_writer.go:17-28 | Writing `a` and then `b` emits the same records and leaves the same buffer as one write of `a + b`. |
| LogRedirector.JobWriterExample | log_writer.go:13-28 | `A\nB\n` emits `DOCKER j | A` and `DOCKER j | B`; a following `C` emits nothing and stays buffered. |
| AppBuild.EntryPointScriptName | app/main.go:21-23 | The job name unchanged, then `.sh`. |
| AppBuild.ScriptNameAgreesWithoutSpaces | app/main.go:21-23 | The early name equals the later sanitized name exactly when the job name has no space. |
| AppBuild.NewBuildContext | app/main.go:71-91 | It fails exactly when reading the working directory or creating the folder fails. Otherwise the folder is `.gobuild` and the container folder is `/var/gobuild`. |
| AppBuild.ContextAgreesWithCore | app/main.go:71-91 | The early context has the same folders and the same failures as the later one. |
| AppBuild.EntryPointScript | app/main.go:141-156 | The script starts with the shebang and `set -e` and ends with a newline. |
| AppBuild.Header | app/main.go:146-150 | The early variant's four opening lines. `HeaderIsLines` states them line by line. |
| AppBuild.HeaderIsLines | app/main.go:146-150 | The header is exactly `#!/bin/sh`, `set -e`, `echo Switch workdir to D`, `cd D`, each newline-terminated. |
| AppBuild.EntryPointScriptMatchesCore | app/main.go:146-156 | Split at newlines, the early script has the same lines as the later one except the third, which is `echo Switch workdir to D`. |
| AppBuild.DockerArgs | app/main.go:111-123 | Six arguments: `run`, `-v` with the mount `WORKDIR:/var/gobuild` for every working directory, `--entrypoint` with `/var/gobuild/.gobuild/` and the job name as written (spaces kept) plus `.sh`, and the image last. |
| AppBuild.ContainerRunsWrittenScript | app/main.go:117-142 | For every job name, spaces included, and a non-empty working directory not ending in `/`: the entry point lies in the mounted folder at the same relative path as the script written under the working directory. |
| AppBuild.DockerArgsAreCoreWithoutEnvFile | app/main.go:111-123 | For a name without spaces, the early arguments are the later ones without the `--env-file` pair. |
| AppBuild.ExecuteDockerJob | app/main.go:105-139 | A failed script write returns that error and builds no command. Otherwise the command carries the arguments and the host environment unchanged, and the job fails exactly when the run does, with its error. |
| AppBuild.RunJobs | app/main.go:94-100 | Running from job `i` never launches more jobs than remain. |
| AppBuild.FirstError | app/main.go:94-100 | The first job at or after `i` that returns an error; every job before it succeeds. |
| AppBuild.RunJobsStopsAtFirstError | app/main.go:93-103 | Jobs are attempted in order up to and including the first error, which is the run's result. |
| AppBuild.ExecuteBuild | app/main.go:93-103 | The build fails exactly when some job fails, with the first such error. Jobs run in order up to it, each with the host environment. |
| AppLogRedirector.Write | app/log_writer.go:12-22 | It reports every byte written and no error. It emits one record per newline in this call's input, each starting with `DOCKER <job> | `. |
| AppLogRedirector.SingleWriteAgreesWithCore | app/log_writer.go:12-22 | A single write emits what the later writer emits, tagged with the same job and holding the same buffer. |
| AppLogRedirector.PartialLineLost | app/log_writer.go:12-18 | Writing `A` then `B\n` emits only `DOCKER j | B`: the value receiver drops the partial line. |
| AppLogRedirector.CoreKeepsPartialLine | log_writer.go:17-28 | The later writer emits `DOCKER j | AB` for the same two chunks. |

## Left out

- `main` in both variants: reading and parsing the YAML configuration,
  command-line handling, exit codes and printing. A configuration is given
  as a value.
- `os.Getwd`, `os.MkdirAll` and `ioutil.WriteFile` are outcome parameters.
  The folder path is built before the mkdir outcome is consulted.
- `exec.Command(...).Run()` is an outcome parameter. The subprocess, its
  output pipes and how docker interprets the arguments are not modelled.
- `time.Now` and `time.Since` are not modelled. Each job's elapsed time is
  an opaque text parameter stored on finish.
- `PrintJobStatus` and its tabwriter table are not modelled. `Status.Text`
  and `Duration.Text` give the texts it would print, and they have no
  contract.
- `LogSeparator` and the progress lines written with `log.Printf` are not
  modelled. The `log` package's timestamps and added newlines are not
  modelled either; a record is the text passed to `log.Printf`.
- Go map iteration order is the `order` parameter, which lists each key
  once. Statements about `GetEnvArray` and `CreateEnvFile` hold for every
  such order.
- `JobStatusTracker.JoinPath` models `path.Join` only for a clean directory
  and a single name. It does not clean `..`, `.` or doubled slashes.
- `EnvironmentComposer.Expand` follows the grammar of `os.Expand`. It
  covers the special one-character names, an unterminated `${`, a lone
  `$` and `${}`. Its lemmas cover `$NAME` and `${NAME}`.
- `os.Environ()` is read once per job in the source. The model takes the
  result of `GetEnvMap` over it as the `host` parameter, the same for every
  job.
- `BuildOrchestrator.DockerCommand` does not carry the environment of the
  `docker` client process, which the source sets to `GetEnvArray(jobEnv)`.
  That value depends on map iteration order, and its shape is stated by
  `EnvironmentComposer.GetEnvArray` and `EnvArrayNotReadable`.
- `BuildOrchestrator.RunJobBody`, `EnvironmentComposer.Lookup` and
  `EnvEntry`, `ScriptMaterializer.Step`, `Header` and `EnvFileContent`,
  `JobStatusTracker.JoinPath`, `LogRedirector.Record` and `AppBuild.Header`
  have no contract of their own. The lemmas named in their rows state
  their behaviour.
- `BuildOrchestrator.ExecuteDockerJob` and `JobStatusTracker.FinishJob`
  state their per-entry effect in the separate lemmas
  `ExecuteDockerJobRecords` and `FinishJobRecords`.
- BuildOrchestrator.RunJobsStatuses: assumes distinct job names, because
  with repeated names a finish lands on the first matching entry
  (`DuplicateNamesCollapse`). `RunJobsLeavesLaterEntries` states the
  untouched later entries without that assumption.
- BuildOrchestrator.ExecuteBuildStatuses: assumes distinct job names for the
  attempted entries, for the same reason. `ExecuteBuildLeavesLaterJobsNotRun`
  states that later jobs stay `NotRun` for every configuration.
- Go strings are byte strings. The model writes them as Dafny strings in
  which one character stands for one byte, so job names, scripts and log
  records are byte sequences. `LogRedirector.AsText` follows that
  convention; no UTF-8 decoding is modelled.
- `AppBuild.ExecuteDockerJob` does not model the two log writers attached
  to the early variant's container. Their behaviour is
  `AppLogRedirector.Write`.

Behaviour of the code worth knowing:

- A job's own placeholder `${NAME}` that names no build variable is blanked
  by the first expansion pass, even when the host defines `NAME`
  (`HostOnlyVarBlankedInJob`). Host placeholders that the first pass
  produces from a build value are still expanded by the last pass.
- `FinishJob` does not clear the active job.
- `GetEnvArray` fills only its first slot, because the index is never
  advanced. The `docker` client process therefore receives one variable
  and empty strings as its environment. The container's variables come
  from the env file, which holds every resolved variable.
- With duplicate job names, every run finishes the first matching entry.
  Entries after the last attempted job are still never written
  (`ExecuteBuildLeavesLaterJobsNotRun`).
- The error from writing the env file is ignored.
- When reading the host environment panics, the deferred finish still runs
  and records `OK`, the status it held at that point. This is modelled as
  the job end `Panicked`, which stops the build.
- The early variant's log writer loses the partial line at the end of
  every write.

=== FILE: app_build.dfy ===
/** The earlier variant of the tool: no variables, no env file, no status
    report. Jobs run in order, each with a generated entry-point script, and
    the build stops at the first error. */
module AppBuild {
  import opened Results
  import Lines
  import Config
  import ScriptMaterializer
  import JobStatusTracker
  import BuildOrchestrator

  /** A job of this variant: no variables of its own. */
  datatype AppJob = AppJob(name: string, image: string, scripts: seq<string>)

  datatype AppConfig = AppConfig(jobs: seq<AppJob>)

  /** The run context: only the workspace paths. */
  datatype AppContext = AppContext(workDir: string, tempFolderName: string, tempFolder: string, dockerWorkDir: string)

  /** The same job as the later variant sees it, with no variables. */
  function AsCoreJob(job: AppJob): Config.BuildJob
  {
    Config.BuildJob(job.name, job.image, job.scripts, map[])
  }

  /** The script file name: the job name as written, spaces kept, then `.sh`. */
  function EntryPointScriptName(job: AppJob): (r: string)
    ensures |r| == |job.name| + 3
    ensures r[..|job.name|] == job.name && r[|job.name|..] == ".sh"
  {
    job.name + ".sh"
  }

  /** The two variants name the script alike exactly when the job name has no
      space; a space is kept here and replaced by `-` in the later variant. */
  lemma ScriptNameAgreesWithoutSpaces(job: AppJob)
    ensures EntryPointScriptName(job) == ScriptMaterializer.EntryPointScriptName(AsCoreJob(job))
            <==> ' ' !in job.name
  {
    var a := EntryPointScriptName(job);
    var b := ScriptMaterializer.EntryPointScriptName(AsCoreJob(job));
    if ' ' in job.name {
      var i :| 0 <= i < |job.name| && job.name[i] == ' ';
      assert a[i] == ' ' && b[i] == '-';
    } else {
      assert a == b;
    }
  }

  /** The run context for the working directory `getwd`, given the outcome of
      creating the artifact folder. */
  function NewBuildContext(getwd: Result<string, string>, mkdir: Outcome): (r: Result<AppContext, string>)
    ensures r.Ok? <==> getwd.Ok? && mkdir.Pass?
    ensures getwd.Err? ==> r == Err(getwd.error)
    ensures getwd.Ok? && mkdir.Fail? ==> r == Err(mkdir.reason)
    ensures r.Ok? ==> r.value.workDir == getwd.value && r.value.tempFolderName == ".gobuild"
                      && r.value.dockerWorkDir == "/var/gobuild"
  {
    match getwd
    case Err(e) => Err(e)
    case Ok(workDir) =>
      var ctx := AppContext(workDir, JobStatusTracker.TempFolderName, JobStatusTracker.JoinPath(workDir, JobStatusTracker.TempFolderName),
                            JobStatusTracker.DockerWorkDir);
      match mkdir
      case Fail(e) => Err(e)
      case Pass => Ok(ctx)
  }

  /** Both variants lay out the workspace identically and fail on the same outcomes. */
  lemma ContextAgreesWithCore(config: Config.BuildConfig, getwd: Result<string, string>, mkdir: Outcome)
    ensures var a := NewBuildContext(getwd, mkdir);
            var c := JobStatusTracker.NewBuildContext(config, getwd, mkdir);
            && a.Ok? == c.Ok?
            && (a.Err? ==> a.error == c.error)
            && (a.Ok? ==> var ws := c.value.ws;
                 a.value == AppContext(ws.workDir, ws.tempFolderName, ws.tempFolder, ws.dockerWorkDir))
  {
  }

  function Header(dockerWorkDir: string): string
  {
    "#!/bin/sh\n" + "set -e\n" + "echo Switch workdir to " + dockerWorkDir + "\n" + "cd " + dockerWorkDir + "\n"
  }

  /** The script text: shell header, a trace of the directory switch, and per
      command a trace line and the command. */
  function EntryPointScript(dockerWorkDir: string, job: AppJob): (r: string)
    ensures "#!/bin/sh\nset -e\n" <= r
    ensures r[|r| - 1] == '\n'
  {
    var header := Header(dockerWorkDir);
    assert header[..17] == "#!/bin/sh\nset -e\n";
    header + ScriptMaterializer.Steps(job.scripts)
  }

  function HeaderLines(dockerWorkDir: string): seq<string>
  {
    ["#!/bin/sh", "set -e", "echo Switch workdir to " + dockerWorkDir, "cd " + dockerWorkDir]
  }

  lemma HeaderIsLines(dockerWorkDir: string)
    ensures Header(dockerWorkDir) == Lines.Terminated('\n', HeaderLines(dockerWorkDir))
  {
    ScriptMaterializer.HeaderShape('\n', "#!/bin/sh", "set -e", "echo Switch workdir to ", "cd ", dockerWorkDir);
    assert "#!/bin/sh\n" == "#!/bin/sh" + ['\n'];
    assert "set -e\n" == "set -e" + ['\n'];
  }

  /** Read line by line, the script of this variant is the later variant's
      script with only its third line (the trace of the directory switch)
      different; every command line and its trace are the same. */
  lemma EntryPointScriptMatchesCore(dockerWorkDir: string, job: AppJob)
    requires '\n' !in dockerWorkDir
    requires forall i :: 0 <= i < |job.scripts| ==> '\n' !in job.scripts[i]
    ensures var mine := Lines.Feed('\n', "", EntryPointScript(dockerWorkDir, job));
            var core := Lines.Feed('\n', "", ScriptMaterializer.EntryPointScript(dockerWorkDir, AsCoreJob(job)));
            && mine.rest == "" && core.rest == ""
            && |mine.lines| == |core.lines| == 4 + 2 * |job.scripts|
            && mine.lines[2] == "echo Switch workdir to " + dockerWorkDir
            && forall i :: 0 <= i < |mine.lines| && i != 2 ==> mine.lines[i] == core.lines[i]
  {
    var steps := ScriptMaterializer.StepLines(job.scripts);
    var lines := HeaderLines(dockerWorkDir) + steps;
    ScriptMaterializer.StepsAreLines(job.scripts);
    HeaderIsLines(dockerWorkDir);
    Lines.TerminatedAppend('\n', HeaderLines(dockerWorkDir), steps);
    ScriptMaterializer.ScriptLinesFree(dockerWorkDir, job.scripts);
    assert Lines.AllFree('\n', lines) by {
      var core := ScriptMaterializer.ScriptLines(dockerWorkDir, job.scripts);
      forall i | 0 <= i < |lines|
        ensures '\n' !in lines[i]
      {
        if i != 2 {
          assert lines[i] == core[i];
        }
      }
    }
    Lines.FeedTerminated('\n', lines);
    ScriptMaterializer.EntryPointScriptLines(dockerWorkDir, AsCoreJob(job));
  }

  /** The `docker` arguments: mount, entry point, image. The mount holds for
      every working directory; the entry point keeps the job name as written,
      spaces included. */
  function DockerArgs(ctx: AppContext, job: AppJob): (r: seq<string>)
    ensures |r| == 6 && r[0] == "run" && r[1] == "-v" && r[3] == "--entrypoint" && r[5] == job.image
    ensures r[2] == ctx.workDir + ":" + ctx.dockerWorkDir
    ensures r[4] == ctx.dockerWorkDir + "/" + ctx.tempFolderName + "/" + job.name + ".sh"
  {
    [ "run",
      "-v", ctx.workDir + ":" + ctx.dockerWorkDir,
      "--entrypoint", ctx.dockerWorkDir + "/" + ctx.tempFolderName + "/" + EntryPointScriptName(job),
      job.image ]
  }

  /** The container runs the very script the job wrote, for every job name,
      spaces included: for a context made from a working directory that is
      non-empty and does not end in `/`, the entry point lies in the mounted
      directory at the same relative path as the written script lies under
      the working directory. */
  lemma ContainerRunsWrittenScript(getwd: Result<string, string>, job: AppJob)
    requires getwd.Ok? && |getwd.value| > 0 && getwd.value[|getwd.value| - 1] != '/'
    ensures var ctx := NewBuildContext(getwd, Pass).value;
            var args := DockerArgs(ctx, job);
            var rel := "/" + JobStatusTracker.TempFolderName + "/" + job.name + ".sh";
            && args[2] == getwd.value + ":" + ctx.dockerWorkDir
            && JobStatusTracker.JoinPath(ctx.tempFolder, EntryPointScriptName(job)) == getwd.value + rel
            && args[4] == ctx.dockerWorkDir + rel
  {
    var ctx := NewBuildContext(getwd, Pass).value;
    var w := getwd.value;
    var t := ctx.tempFolder;
    var name := EntryPointScriptName(job);
    assert t == w + "/" + JobStatusTracker.TempFolderName;
    assert t[|t| - 1] == 'd';
    assert JobStatusTracker.JoinPath(t, name) == t + "/" + name;
    assert t + "/" + name == w + ("/" + JobStatusTracker.TempFolderName + "/" + job.name + ".sh");
  }

  /** For a job whose name has no space, the arguments are the later
      variant's with the `--env-file` pair removed. */
  lemma DockerArgsAreCoreWithoutEnvFile(config: Config.BuildConfig, getwd: Result<string, string>, job: AppJob)
    requires getwd.Ok? && ' ' !in job.name
    ensures var ctx := NewBuildContext(getwd, Pass).value;
            var core := BuildOrchestrator.DockerArgs(JobStatusTracker.NewBuildContext(config, getwd, Pass).value.ws, AsCoreJob(job));
            DockerArgs(ctx, job) == core[..3] + core[5..]
  {
    ScriptNameAgreesWithoutSpaces(job);
  }

  /** The outcomes of a job's effects: writing the script and running the container. */
  datatype AppEffects = AppEffects(scriptWrite: Outcome, run: Outcome)

  /** A launched container: its arguments and the environment handed to it. */
  datatype AppCommand = AppCommand(args: seq<string>, env: seq<string>)

  /** How one job ended (its error, if any) and the container it launched. */
  datatype AppJobRun = AppJobRun(err: Option<string>, command: Option<AppCommand>)

  /** One job: write the script, then run the container with the host
      environment passed through unchanged. */
  function ExecuteDockerJob(ctx: AppContext, job: AppJob, environ: seq<string>, fx: AppEffects): (r: AppJobRun)
    ensures fx.scriptWrite.Fail? ==> r == AppJobRun(Some(fx.scriptWrite.reason), None)
    ensures fx.scriptWrite.Pass? ==> r.command == Some(AppCommand(DockerArgs(ctx, job), environ))
    ensures fx.scriptWrite.Pass? ==> (r.err.None? <==> fx.run.Pass?)
    ensures fx.scriptWrite.Pass? && fx.run.Fail? ==> r.err == Some(fx.run.reason)
  {
    match fx.scriptWrite
    case Fail(e) => AppJobRun(Some(e), None)
    case Pass =>
      var command := AppCommand(DockerArgs(ctx, job), environ);
      match fx.run
      case Fail(e) => AppJobRun(Some(e), Some(command))
      case Pass => AppJobRun(None, Some(command))
  }

  /** How a build ended and, per attempted job, the container it launched. */
  datatype AppBuildRun = AppBuildRun(err: Option<string>, commands: seq<Option<AppCommand>>)

  function RunJobs(ctx: AppContext, jobs: seq<AppJob>, environ: seq<string>, fx: seq<AppEffects>, i: nat): (r: AppBuildRun)
    requires |fx| == |jobs| && i <= |jobs|
    ensures |r.commands| <= |jobs| - i
    decreases |jobs| - i
  {
    if i == |jobs| then AppBuildRun(None, [])
    else
      var run := ExecuteDockerJob(ctx, jobs[i], environ, fx[i]);
      if run.err.Some? then AppBuildRun(run.err, [run.command])
      else
        var rest := RunJobs(ctx, jobs, environ, fx, i + 1);
        AppBuildRun(rest.err, [run.command] + rest.commands)
  }

  /** The first position at or after `i` whose job returns an error, or `|jobs|`. */
  function FirstError(ctx: AppContext, jobs: seq<AppJob>, environ: seq<string>, fx: seq<AppEffects>, i: nat): (s: nat)
    requires |fx| == |jobs| && i <= |jobs|
    ensures i <= s <= |jobs|
    ensures forall j :: i <= j < s ==> ExecuteDockerJob(ctx, jobs[j], environ, fx[j]).err.None?
    ensures s < |jobs| ==> ExecuteDockerJob(ctx, jobs[s], environ, fx[s]).err.Some?
    decreases |jobs| - i
  {
    if i == |jobs| then i
    else if ExecuteDockerJob(ctx, jobs[i], environ, fx[i]).err.Some? then i
    else FirstError(ctx, jobs, environ, fx, i + 1)
  }

  lemma {:induction false} RunJobsStopsAtFirstError(
    ctx: AppContext, jobs: seq<AppJob>, environ: seq<string>, fx: seq<AppEffects>, i: nat)
    requires |fx| == |jobs| && i <= |jobs|
    ensures var r := RunJobs(ctx, jobs, environ, fx, i);
            var s := FirstError(ctx, jobs, environ, fx, i);
            && |r.commands| == (if s < |jobs| then s + 1 else |jobs|) - i
            && (forall j :: i <= j < i + |r.commands| ==>
                  r.commands[j - i] == ExecuteDockerJob(ctx, jobs[j], environ, fx[j]).command)
            && r.err == (if s < |jobs| then ExecuteDockerJob(ctx, jobs[s], environ, fx[s]).err else None)
    decreases |jobs| - i
  {
    if i < |jobs| {
      var run := ExecuteDockerJob(ctx, jobs[i], environ, fx[i]);
      if run.err.None? {
        RunJobsStopsAtFirstError(ctx, jobs, environ, fx, i + 1);
        var rest := RunJobs(ctx, jobs, environ, fx, i + 1);
        var r := RunJobs(ctx, jobs, environ, fx, i);
        forall j | i < j < i + |r.commands|
          ensures r.commands[j - i] == ExecuteDockerJob(ctx, jobs[j], environ, fx[j]).command
        {
          assert r.commands[j - i] == rest.commands[j - (i + 1)];
        }
      }
    }
  }

  /** The build: jobs in order until the first error, which it returns; every
      container launched receives the host environment as it is. */
  function ExecuteBuild(ctx: AppContext, config: AppConfig, environ: seq<string>, fx: seq<AppEffects>): (r: AppBuildRun)
    requires |fx| == |config.jobs|
    ensures var jobs := config.jobs;
            var s := FirstError(ctx, jobs, environ, fx, 0);
            && (r.err.None? <==> s == |jobs|)
            && (s < |jobs| ==> r.err == ExecuteDockerJob(ctx, jobs[s], environ, fx[s]).err)
            && |r.commands| == (if s < |jobs| then s + 1 else |jobs|)
            && (forall j :: 0 <= j < |r.commands| ==> r.commands[j] == ExecuteDockerJob(ctx, jobs[j], environ, fx[j]).command)
            && (forall j :: 0 <= j < |r.commands| && r.commands[j].Some? ==> r.commands[j].value.env == environ)
  {
    RunJobsStopsAtFirstError(ctx, config.jobs, environ, fx, 0);
    RunJobs(ctx, config.jobs, environ, fx, 0)
  }
}

=== FILE: app_log_redirector.dfy ===
/** The earlier variant's output redirector. Its `Write` has a value
    receiver: the line buffer it fills is a copy, so nothing carries over
    from one `Write` to the next, and bytes after the last newline of a
    chunk are never emitted. Stdout and stderr get separate writers. */
module AppLogRedirector {
  import opened Results
  import Lines
  import LogRedirector

  type byte = LogRedirector.byte

  /** The writer as constructed: the job name and a (normally empty) buffer. */
  datatype AppLogWriter = AppLogWriter(jobName: string, currentLine: seq<byte>)

  /** What a `Write` returns; the writer itself is left as it was. */
  datatype AppWriteResult = AppWriteResult(records: seq<string>, n: int, err: Option<string>)

  /** `Write(p)` on a copy of `w`: one record `DOCKER <job> | <line>` per newline. */
  function Write(w: AppLogWriter, p: seq<byte>): (r: AppWriteResult)
    ensures r.n == |p| && r.err == None
    ensures |r.records| == Lines.Count(LogRedirector.NEWLINE, p)
    ensures forall i :: 0 <= i < |r.records| ==> "DOCKER " + w.jobName + " | " <= r.records[i]
  {
    var s := Lines.Feed(LogRedirector.NEWLINE, w.currentLine, p);
    AppWriteResult(LogRedirector.Records("DOCKER " + w.jobName + " | ", s.lines), |p|, None)
  }

  /** A single write emits what the later variant's writer, tagged with the
      same job name and holding the same buffer, emits for it. */
  lemma SingleWriteAgreesWithCore(w: AppLogWriter, p: seq<byte>)
    ensures var core := LogRedirector.SetDockerJobName(LogRedirector.LogWriter("", w.currentLine), w.jobName);
            Write(w, p).records == LogRedirector.Write(core, p).records
  {
  }

  /** Splitting `AB\n` into the chunks `A` and `B\n` loses `A`: this writer
      emits only `DOCKER j | B`. */
  lemma PartialLineLost()
    ensures var w := AppLogWriter("j", []);
            Write(w, [65]).records + Write(w, [66, 10]).records == ["DOCKER j | B"]
  {
    var w := AppLogWriter("j", []);
    var b: seq<byte> := [66];
    Lines.CountAbsent(LogRedirector.NEWLINE, [65 as byte]);
    Lines.TerminatedCons(LogRedirector.NEWLINE, b, []);
    assert Lines.Terminated(LogRedirector.NEWLINE, [b]) == [66, 10];
    Lines.FeedTerminated(LogRedirector.NEWLINE, [b]);
    assert LogRedirector.AsText(b) == "B";
    var prefix := "DOCKER " + w.jobName + " | ";
    assert prefix == "DOCKER j | ";
    var rs := LogRedirector.Records(prefix, [b]);
    assert |rs| == 1 && rs[0] == "DOCKER j | B";
  }

  /** The later variant's writer keeps `A` buffered between the same two
      chunks and emits `DOCKER j | AB`, as for the unsplit stream. */
  lemma CoreKeepsPartialLine()
    ensures var core := LogRedirector.SetDockerJobName(LogRedirector.NewLogWriter, "j");
            var first := LogRedirector.Write(core, [65]);
            first.records + LogRedirector.Write(first.writer, [66, 10]).records == ["DOCKER j | AB"]
  {
    var core := LogRedirector.SetDockerJobName(LogRedirector.NewLogWriter, "j");
    var a: seq<byte> := [65];
    var ab: seq<byte> := [65, 66];
    LogRedirector.WriteDeterminesRecords(core, a, [], a);
    var first := LogRedirector.Write(core, a);
    assert first.records == [] && first.writer == LogRedirector.LogWriter("DOCKER j | ", a);
    Lines.TerminatedCons(LogRedirector.NEWLINE, ab, []);
    assert Lines.Terminated(LogRedirector.NEWLINE, [ab]) + [] == a + [66, 10];
    LogRedirector.WriteDeterminesRecords(first.writer, [66, 10], [ab], []);
    assert LogRedirector.AsText(ab) == "AB";
    var rs := LogRedirector.Records("DOCKER j | ", [ab]);
    assert |rs| == 1 && rs[0] == "DOCKER j | AB";
  }
}

=== FILE: build_orchestrator.dfy ===
/** Job execution and sequencing: the `docker run` argument vector, one job's
    execution with its deferred status finish, and the build loop that stops
    at the first failing job.

    The container run, the file writes and the clock are not performed: each
    job receives `JobEffects`, the outcomes those steps would have. The host
    environment is the same for every job, so it is read once, by the caller,
    with `GetEnvMap`, and handed to every job as `host`. */
module BuildOrchestrator {
  import opened Results
  import opened EnvironmentComposer
  import opened Config
  import opened ScriptMaterializer
  import opened JobStatusTracker

  /** The outcomes of a job's effects: writing the entry-point script, writing
      the env file, running the container, and the elapsed time measured at finish. */
  datatype JobEffects = JobEffects(scriptWrite: Outcome, envFileWrite: Outcome, run: Outcome, elapsed: string)

  /** How a job's execution ends: returning no error, returning an error, or
      panicking on a host variable without `=`. */
  datatype JobEnd = Succeeded | Errored(reason: string) | Panicked(entry: string)

  /** The container launched for `job` in workspace `ws` with host variables
      `osEnv`: its `docker` arguments and the variables written to its env file. */
  datatype DockerCommand = DockerCommand(ws: Workspace, job: BuildJob, osEnv: Env)
  {
    function Args(): seq<string>
    {
      DockerArgs(ws, job)
    }

    function EnvFile(): Env
    {
      ResolveJobEnv(ws.config.env, job.env, osEnv)
    }
  }

  /** What the body of a job decides: the status the deferred finish records,
      how the job ends, and the container it launched, if any. */
  datatype JobBody = JobBody(status: Status, end: JobEnd, command: Option<DockerCommand>)

  /** The context after a job, how it ended, and the container it launched. */
  datatype JobRun = JobRun(ctx: BuildContext, end: JobEnd, command: Option<DockerCommand>)

  /** The context after a build, how it ended, and per attempted job the container it launched. */
  datatype BuildRun = BuildRun(ctx: BuildContext, end: JobEnd, commands: seq<Option<DockerCommand>>)

  /** The `docker` arguments: mount the working directory, pass the env file,
      use the generated script as entry point, and name the image last. */
  function DockerArgs(ws: Workspace, job: BuildJob): (r: seq<string>)
    ensures |r| == 8 && r[0] == "run" && r[7] == job.image
    ensures r[1] == "-v" && r[3] == "--env-file" && r[5] == "--entrypoint"
    ensures r[2] == ws.workDir + ":" + ws.dockerWorkDir
  {
    [ "run",
      "-v", ws.workDir + ":" + ws.dockerWorkDir,
      "--env-file", ws.workDir + "/" + ws.tempFolderName + "/" + EnvFileName(job),
      "--entrypoint", ws.dockerWorkDir + "/" + ws.tempFolderName + "/" + EntryPointScriptName(job),
      job.image ]
  }

  /** The container runs the very script the job wrote: for a workspace made
      from a working directory that is non-empty and does not end in `/`, the
      entry point lies in the mounted directory at the same relative path as
      the written script lies under the working directory, and the env-file
      argument is the path the env file is written to. */
  lemma ContainerRunsWrittenScript(ws: Workspace, job: BuildJob)
    requires ws.tempFolderName == TempFolderName
    requires ws.tempFolder == JoinPath(ws.workDir, TempFolderName)
    requires |ws.workDir| > 0 && ws.workDir[|ws.workDir| - 1] != '/'
    ensures var args := DockerArgs(ws, job);
            var rel := "/" + TempFolderName + "/" + EntryPointScriptName(job);
            && args[2] == ws.workDir + ":" + ws.dockerWorkDir
            && JoinPath(ws.tempFolder, EntryPointScriptName(job)) == ws.workDir + rel
            && args[6] == ws.dockerWorkDir + rel
            && args[4] == JoinPath(ws.tempFolder, EnvFileName(job))
  {
    var w := ws.workDir;
    var t := ws.tempFolder;
    var name := EntryPointScriptName(job);
    assert t == w + "/" + TempFolderName;
    assert t[|t| - 1] == 'd';
    assert JoinPath(t, name) == t + "/" + name;
    assert JoinPath(t, EnvFileName(job)) == t + "/" + EnvFileName(job);
    assert t + "/" + name == w + ("/" + TempFolderName + "/" + name);
  }

  /** The body of a job, between its start and its deferred finish. `host`
      is the host environment as `GetEnvMap` reads it: the variables, or the
      first entry without `=`, on which the body panics. */
  function RunJobBody(ws: Workspace, job: BuildJob, host: Result<Env, string>, fx: JobEffects): JobBody
  {
    match fx.scriptWrite
    case Fail(e) => JobBody(EntryPointCreationError, Errored(e), None)
    case Pass =>
      match host
      // the panic unwinds through the deferred finish, which records the initial "OK"
      case Err(entry) => JobBody(OK, Panicked(entry), None)
      case Ok(osEnv) =>
        var command := DockerCommand(ws, job, osEnv);
        // the env file's write outcome (fx.envFileWrite) is not checked
        match fx.run
        case Fail(e) => JobBody(Failed, Errored(e), Some(command))
        case Pass => JobBody(OK, Succeeded, Some(command))
  }

  /** What each way through a job's body decides: a script that cannot be
      written ends the job with `EntryPointCreationError` before anything is
      launched; a host variable without `=` panics with the initial `OK` still
      in place; otherwise the container is launched with the composed
      variables, and its outcome decides between `Failed` and `OK`. */
  lemma RunJobBodyCases(ws: Workspace, job: BuildJob, host: Result<Env, string>, fx: JobEffects)
    ensures var b := RunJobBody(ws, job, host, fx);
            && (fx.scriptWrite.Fail? ==>
                  b == JobBody(EntryPointCreationError, Errored(fx.scriptWrite.reason), None))
            && (fx.scriptWrite.Pass? && host.Err? ==>
                  b == JobBody(OK, Panicked(host.error), None))
            && (fx.scriptWrite.Pass? && host.Ok? ==>
                  && b.command == Some(DockerCommand(ws, job, host.value))
                  && b.command.value.Args() == DockerArgs(ws, job)
                  && b.command.value.EnvFile() == ResolveJobEnv(ws.config.env, job.env, host.value)
                  && (fx.run.Fail? ==> b.status == Failed && b.end == Errored(fx.run.reason))
                  && (fx.run.Pass? ==> b.status == OK && b.end == Succeeded))
  {
  }

  /** A failed env-file write changes nothing: its error is dropped. */
  lemma EnvFileWriteIgnored(ws: Workspace, job: BuildJob, host: Result<Env, string>, fx: JobEffects, w: Outcome)
    ensures RunJobBody(ws, job, host, fx) == RunJobBody(ws, job, host, fx.(envFileWrite := w))
  {
  }

  /** The recorded status agrees with how the job ended, except that a panic
      leaves the initial `OK` in place; and a container is launched exactly when
      the script was written and the host environment could be read. */
  lemma StatusMatchesEnd(ws: Workspace, job: BuildJob, host: Result<Env, string>, fx: JobEffects)
    ensures var b := RunJobBody(ws, job, host, fx);
            && (b.end.Succeeded? <==> b.status == OK && !b.end.Panicked?)
            && (b.status == EntryPointCreationError <==> fx.scriptWrite.Fail?)
            && (b.command.Some? <==> fx.scriptWrite.Pass? && host.Ok?)
  {
  }

  /** One job: start it, run its body, and finish it with the body's status
      whatever way the body ended. */
  function ExecuteDockerJob(ctx: BuildContext, job: BuildJob, host: Result<Env, string>, fx: JobEffects): (r: JobRun)
    ensures var b := RunJobBody(ctx.ws, job, host, fx);
            && r.end == b.end && r.command == b.command
            && r.ctx.ws == ctx.ws && r.ctx.currentJob == job.name
            && |r.ctx.statuses| == |ctx.statuses|
  {
    var started := StartJob(ctx, job.name);
    var body := RunJobBody(started.ws, job, host, fx);
    JobRun(FinishJob(started, body.status, fx.elapsed), body.end, body.command)
  }

  /** The job's finish lands on the first entry carrying its name, with the
      body's status and the elapsed time; every other entry is unchanged. */
  lemma ExecuteDockerJobRecords(ctx: BuildContext, job: BuildJob, host: Result<Env, string>, fx: JobEffects)
    ensures var r := ExecuteDockerJob(ctx, job, host, fx);
            var b := RunJobBody(ctx.ws, job, host, fx);
            forall j :: 0 <= j < |ctx.statuses| ==>
              r.ctx.statuses[j] == (if IsFirst(ctx.statuses, job.name, j)
                                    then JobStatus(job.name, b.status, Measured(fx.elapsed))
                                    else ctx.statuses[j])
  {
    FinishJobRecords(StartJob(ctx, job.name), RunJobBody(ctx.ws, job, host, fx).status, fx.elapsed);
  }

  /** The jobs from position `i` on, stopping after the first that does not succeed. */
  function RunJobs(ctx: BuildContext, jobs: seq<BuildJob>, host: Result<Env, string>, fx: seq<JobEffects>, i: nat)
    : (r: BuildRun)
    requires |fx| == |jobs| && i <= |jobs|
    ensures r.ctx.ws == ctx.ws && |r.ctx.statuses| == |ctx.statuses|
    ensures |r.commands| <= |jobs| - i
    decreases |jobs| - i
  {
    if i == |jobs| then BuildRun(ctx, Succeeded, [])
    else
      var run := ExecuteDockerJob(ctx, jobs[i], host, fx[i]);
      if !run.end.Succeeded? then BuildRun(run.ctx, run.end, [run.command])
      else
        var rest := RunJobs(run.ctx, jobs, host, fx, i + 1);
        BuildRun(rest.ctx, rest.end, [run.command] + rest.commands)
  }

  /** The first position at or after `i` whose job does not succeed, or `|jobs|`. */
  function FirstStop(ws: Workspace, jobs: seq<BuildJob>, host: Result<Env, string>, fx: seq<JobEffects>, i: nat)
    : (s: nat)
    requires |fx| == |jobs| && i <= |jobs|
    ensures i <= s <= |jobs|
    ensures forall j :: i <= j < s ==> RunJobBody(ws, jobs[j], host, fx[j]).end.Succeeded?
    ensures s < |jobs| ==> !RunJobBody(ws, jobs[s], host, fx[s]).end.Succeeded?
    decreases |jobs| - i
  {
    if i == |jobs| then i
    else if !RunJobBody(ws, jobs[i], host, fx[i]).end.Succeeded? then i
    else FirstStop(ws, jobs, host, fx, i + 1)
  }

  /** Number of jobs attempted from position `i` when the first failure is at `s`. */
  function Attempted(s: nat, n: nat, i: nat): nat
    requires i <= s <= n
  {
    (if s < n then s + 1 else n) - i
  }

  /** A job that succeeds is followed by the rest of the build, from a
      context `next` with the same workspace. */
  lemma RunJobsUnfold(ctx: BuildContext, jobs: seq<BuildJob>, host: Result<Env, string>, fx: seq<JobEffects>, i: nat)
    returns (next: BuildContext)
    requires |fx| == |jobs| && i < |jobs|
    requires RunJobBody(ctx.ws, jobs[i], host, fx[i]).end.Succeeded?
    ensures next == ExecuteDockerJob(ctx, jobs[i], host, fx[i]).ctx
    ensures next.ws == ctx.ws
    ensures var rest := RunJobs(next, jobs, host, fx, i + 1);
            && RunJobs(ctx, jobs, host, fx, i).commands == [RunJobBody(ctx.ws, jobs[i], host, fx[i]).command] + rest.commands
            && RunJobs(ctx, jobs, host, fx, i).end == rest.end
            && RunJobs(ctx, jobs, host, fx, i).ctx == rest.ctx
    ensures FirstStop(ctx.ws, jobs, host, fx, i) == FirstStop(ctx.ws, jobs, host, fx, i + 1)
  {
    next := ExecuteDockerJob(ctx, jobs[i], host, fx[i]).ctx;
  }

  lemma ConsIndex<C>(c: C, rest: seq<C>, k: nat)
    requires 1 <= k < 1 + |rest|
    ensures ([c] + rest)[k] == rest[k - 1]
  {
  }

  /** Prepending job `i`'s container to the containers of jobs `i + 1`, … keeps
      every position matched with its job. */
  lemma CommandsCons(ws: Workspace, jobs: seq<BuildJob>, host: Result<Env, string>, fx: seq<JobEffects>, i: nat,
                     c: Option<DockerCommand>, rest: seq<Option<DockerCommand>>)
    requires |fx| == |jobs| && i + 1 + |rest| <= |jobs|
    requires c == RunJobBody(ws, jobs[i], host, fx[i]).command
    requires forall k :: 0 <= k < |rest| ==> rest[k] == RunJobBody(ws, jobs[i + 1 + k], host, fx[i + 1 + k]).command
    ensures forall k :: 0 <= k < 1 + |rest| ==> ([c] + rest)[k] == RunJobBody(ws, jobs[i + k], host, fx[i + k]).command
  {
    forall k | 1 <= k < 1 + |rest|
      ensures ([c] + rest)[k] == RunJobBody(ws, jobs[i + k], host, fx[i + k]).command
    {
      ConsIndex(c, rest, k);
      assert i + 1 + (k - 1) == i + k;
    }
  }

  /** A job that does not succeed ends the build: it is the last one attempted. */
  lemma RunJobsStopsHere(ctx: BuildContext, jobs: seq<BuildJob>, host: Result<Env, string>, fx: seq<JobEffects>, i: nat)
    requires |fx| == |jobs| && i < |jobs|
    requires !RunJobBody(ctx.ws, jobs[i], host, fx[i]).end.Succeeded?
    ensures RunJobs(ctx, jobs, host, fx, i).commands == [RunJobBody(ctx.ws, jobs[i], host, fx[i]).command]
    ensures RunJobs(ctx, jobs, host, fx, i).end == RunJobBody(ctx.ws, jobs[i], host, fx[i]).end
    ensures FirstStop(ctx.ws, jobs, host, fx, i) == i
    ensures RunJobs(ctx, jobs, host, fx, i).ctx == ExecuteDockerJob(ctx, jobs[i], host, fx[i]).ctx
  {
  }

  /** The build from position `i` attempts every job up to and including the
      first that does not succeed, and no job after it. */
  lemma {:induction false} RunJobsAttempted(
    ctx: BuildContext, jobs: seq<BuildJob>, host: Result<Env, string>, fx: seq<JobEffects>, i: nat)
    requires |fx| == |jobs| && i <= |jobs|
    ensures |RunJobs(ctx, jobs, host, fx, i).commands| == Attempted(FirstStop(ctx.ws, jobs, host, fx, i), |jobs|, i)
    decreases |jobs| - i
  {
    if i < |jobs| && !RunJobBody(ctx.ws, jobs[i], host, fx[i]).end.Succeeded? {
      RunJobsStopsHere(ctx, jobs, host, fx, i);
    } else if i < |jobs| {
      var next := RunJobsUnfold(ctx, jobs, host, fx, i);
      RunJobsAttempted(next, jobs, host, fx, i + 1);
    }
  }

  /** The build from position `i` ends the way the first job that does not
      succeed ended, or succeeds when every job does. */
  lemma {:induction false} RunJobsEnd(
    ctx: BuildContext, jobs: seq<BuildJob>, host: Result<Env, string>, fx: seq<JobEffects>, i: nat)
    requires |fx| == |jobs| && i <= |jobs|
    ensures var s := FirstStop(ctx.ws, jobs, host, fx, i);
            RunJobs(ctx, jobs, host, fx, i).end
            == (if s < |jobs| then RunJobBody(ctx.ws, jobs[s], host, fx[s]).end else Succeeded)
    decreases |jobs| - i
  {
    if i < |jobs| && !RunJobBody(ctx.ws, jobs[i], host, fx[i]).end.Succeeded? {
      RunJobsStopsHere(ctx, jobs, host, fx, i);
    } else if i < |jobs| {
      var next := RunJobsUnfold(ctx, jobs, host, fx, i);
      RunJobsEnd(next, jobs, host, fx, i + 1);
    }
  }

  /** The containers the bodies of jobs `i`, …, `i + n - 1` launch, in order. */
  function Launched(ws: Workspace, jobs: seq<BuildJob>, host: Result<Env, string>, fx: seq<JobEffects>, i: nat, n: nat)
    : (r: seq<Option<DockerCommand>>)
    requires |fx| == |jobs| && i + n <= |jobs|
    ensures |r| == n
    ensures forall k :: 0 <= k < n ==> r[k] == RunJobBody(ws, jobs[i + k], host, fx[i + k]).command
    decreases n
  {
    if n == 0 then []
    else
      var rest := Launched(ws, jobs, host, fx, i + 1, n - 1);
      CommandsCons(ws, jobs, host, fx, i, RunJobBody(ws, jobs[i], host, fx[i]).command, rest);
      [RunJobBody(ws, jobs[i], host, fx[i]).command] + rest
  }

  /** Each attempted job's container is the one its body launches. */
  lemma {:induction false} RunJobsCommands(
    ctx: BuildContext, jobs: seq<BuildJob>, host: Result<Env, string>, fx: seq<JobEffects>, i: nat)
    requires |fx| == |jobs| && i <= |jobs|
    ensures var r := RunJobs(ctx, jobs, host, fx, i);
            r.commands == Launched(ctx.ws, jobs, host, fx, i, |r.commands|)
    decreases |jobs| - i
  {
    if i < |jobs| && !RunJobBody(ctx.ws, jobs[i], host, fx[i]).end.Succeeded? {
      RunJobsStopsHere(ctx, jobs, host, fx, i);
      assert Launched(ctx.ws, jobs, host, fx, i + 1, 0) == [];
    } else if i < |jobs| {
      var next := RunJobsUnfold(ctx, jobs, host, fx, i);
      RunJobsCommands(next, jobs, host, fx, i + 1);
    }
  }

  /** Job names are pairwise different. */
  ghost predicate DistinctNames(jobs: seq<BuildJob>)
  {
    forall a, b :: 0 <= a < b < |jobs| ==> jobs[a].name != jobs[b].name
  }

  /** The entry job `j`'s finish writes: its name, its body's status and its elapsed time. */
  function FinishedAt(ws: Workspace, jobs: seq<BuildJob>, host: Result<Env, string>, fx: seq<JobEffects>, j: nat): JobStatus
    requires |fx| == |jobs| && j < |jobs|
  {
    JobStatus(jobs[j].name, RunJobBody(ws, jobs[j], host, fx[j]).status, Measured(fx[j].elapsed))
  }

  /** With matching, distinct names, a job's finish updates its own entry and no other. */
  lemma OneJobStatus(ctx: BuildContext, jobs: seq<BuildJob>, host: Result<Env, string>, fx: seq<JobEffects>, i: nat)
    requires |fx| == |jobs| && i < |jobs|
    requires NamesMatch(ctx.statuses, jobs) && DistinctNames(jobs)
    ensures var r := ExecuteDockerJob(ctx, jobs[i], host, fx[i]);
            && NamesMatch(r.ctx.statuses, jobs)
            && forall j :: 0 <= j < |jobs| ==>
                 r.ctx.statuses[j] == (if j == i then FinishedAt(ctx.ws, jobs, host, fx, i) else ctx.statuses[j])
  {
    ExecuteDockerJobRecords(ctx, jobs[i], host, fx[i]);
    forall j | 0 <= j < |jobs|
      ensures IsFirst(ctx.statuses, jobs[i].name, j) <==> j == i
    {
      if j < i {
        assert ctx.statuses[j].name == jobs[j].name != jobs[i].name;
      } else if j > i {
        assert ctx.statuses[i].name == jobs[i].name;
      }
    }
  }

  /** Writing entry `i` and then entries `i + 1`, …, `i + n` writes entries `i`, …, `i + n`. */
  lemma StatusesJoin(ws: Workspace, jobs: seq<BuildJob>, host: Result<Env, string>, fx: seq<JobEffects>, i: nat,
                     a: seq<JobStatus>, b: seq<JobStatus>, c: seq<JobStatus>, n: nat)
    requires |fx| == |jobs| == |a| == |b| == |c|
    requires forall j :: 0 <= j < |jobs| ==> b[j] == (if j == i then FinishedAt(ws, jobs, host, fx, j) else a[j])
    requires forall j :: 0 <= j < |jobs| ==>
               c[j] == (if i + 1 <= j < i + 1 + n then FinishedAt(ws, jobs, host, fx, j) else b[j])
    ensures forall j :: 0 <= j < |jobs| ==>
              c[j] == (if i <= j < i + 1 + n then FinishedAt(ws, jobs, host, fx, j) else a[j])
  {
  }

  /** The entries after the build from position `i`: the attempted jobs'
      finished entries, and the entries of `ctx` everywhere else. */
  ghost predicate StatusesAfter(ctx: BuildContext, jobs: seq<BuildJob>, host: Result<Env, string>, fx: seq<JobEffects>,
                                i: nat)
    requires |fx| == |jobs| && i <= |jobs|
  {
    var r := RunJobs(ctx, jobs, host, fx, i);
    && |ctx.statuses| == |jobs|
    && forall j :: 0 <= j < |jobs| ==>
      r.ctx.statuses[j] == (if i <= j < i + |r.commands| then FinishedAt(ctx.ws, jobs, host, fx, j) else ctx.statuses[j])
  }

  /** A job that does not succeed writes its own entry, and the build ends there. */
  lemma StatusesStop(ctx: BuildContext, jobs: seq<BuildJob>, host: Result<Env, string>, fx: seq<JobEffects>, i: nat)
    requires |fx| == |jobs| && i < |jobs|
    requires NamesMatch(ctx.statuses, jobs) && DistinctNames(jobs)
    requires !RunJobBody(ctx.ws, jobs[i], host, fx[i]).end.Succeeded?
    ensures StatusesAfter(ctx, jobs, host, fx, i)
  {
    RunJobsStopsHere(ctx, jobs, host, fx, i);
    OneJobStatus(ctx, jobs, host, fx, i);
  }

  /** A job that succeeds writes its own entry; if the rest of the build
      writes the later jobs' entries, the build from `i` writes them all. */
  lemma StatusesStep(ctx: BuildContext, jobs: seq<BuildJob>, host: Result<Env, string>, fx: seq<JobEffects>, i: nat)
    requires |fx| == |jobs| && i < |jobs|
    requires NamesMatch(ctx.statuses, jobs) && DistinctNames(jobs)
    requires RunJobBody(ctx.ws, jobs[i], host, fx[i]).end.Succeeded?
    requires StatusesAfter(ExecuteDockerJob(ctx, jobs[i], host, fx[i]).ctx, jobs, host, fx, i + 1)
    ensures StatusesAfter(ctx, jobs, host, fx, i)
  {
    var next := RunJobsUnfold(ctx, jobs, host, fx, i);
    OneJobStatus(ctx, jobs, host, fx, i);
    var rest := RunJobs(next, jobs, host, fx, i + 1);
    StatusesJoin(ctx.ws, jobs, host, fx, i, ctx.statuses, next.statuses, rest.ctx.statuses, |rest.commands|);
  }

  /** A job's finish keeps entries matched to jobs. */
  lemma ExecuteKeepsNames(ctx: BuildContext, jobs: seq<BuildJob>, host: Result<Env, string>, fx: seq<JobEffects>, i: nat)
    requires |fx| == |jobs| && i < |jobs|
    requires NamesMatch(ctx.statuses, jobs)
    ensures NamesMatch(ExecuteDockerJob(ctx, jobs[i], host, fx[i]).ctx.statuses, jobs)
  {
    FinishKeepsNames(StartJob(ctx, jobs[i].name), jobs, RunJobBody(ctx.ws, jobs[i], host, fx[i]).status, fx[i].elapsed);
  }

  /** With matching, distinct names, the jobs attempted from position `i` on
      each hold their finished entry, and every other entry is unchanged. */
  lemma {:induction false} RunJobsStatuses(
    ctx: BuildContext, jobs: seq<BuildJob>, host: Result<Env, string>, fx: seq<JobEffects>, i: nat)
    requires |fx| == |jobs| && i <= |jobs|
    requires NamesMatch(ctx.statuses, jobs) && DistinctNames(jobs)
    ensures StatusesAfter(ctx, jobs, host, fx, i)
    decreases |jobs| - i
  {
    if i == |jobs| {
      assert RunJobs(ctx, jobs, host, fx, i).commands == [];
    } else if !RunJobBody(ctx.ws, jobs[i], host, fx[i]).end.Succeeded? {
      StatusesStop(ctx, jobs, host, fx, i);
    } else {
      ExecuteKeepsNames(ctx, jobs, host, fx, i);
      RunJobsStatuses(ExecuteDockerJob(ctx, jobs[i], host, fx[i]).ctx, jobs, host, fx, i + 1);
      StatusesStep(ctx, jobs, host, fx, i);
    }
  }

  /** A job's finish never reaches past its own entry: entry `i` already
      carries job `i`'s name, so no later entry is the first one with it. */
  lemma LaterEntriesKept(ctx: BuildContext, jobs: seq<BuildJob>, host: Result<Env, string>, fx: seq<JobEffects>, i: nat)
    requires |fx| == |jobs| && i < |jobs|
    requires NamesMatch(ctx.statuses, jobs)
    ensures var r := ExecuteDockerJob(ctx, jobs[i], host, fx[i]);
            forall j :: i < j < |jobs| ==> r.ctx.statuses[j] == ctx.statuses[j]
  {
    ExecuteDockerJobRecords(ctx, jobs[i], host, fx[i]);
    assert ctx.statuses[i].name == jobs[i].name;
  }

  /** Whatever the job names, the build from position `i` leaves every entry
      after the last attempted job as it was. */
  lemma {:induction false} RunJobsLeavesLaterEntries(
    ctx: BuildContext, jobs: seq<BuildJob>, host: Result<Env, string>, fx: seq<JobEffects>, i: nat)
    requires |fx| == |jobs| && i <= |jobs|
    requires NamesMatch(ctx.statuses, jobs)
    ensures var r := RunJobs(ctx, jobs, host, fx, i);
            forall j :: i + |r.commands| <= j < |jobs| ==> r.ctx.statuses[j] == ctx.statuses[j]
    decreases |jobs| - i
  {
    if i == |jobs| {
      assert RunJobs(ctx, jobs, host, fx, i).commands == [];
    } else if !RunJobBody(ctx.ws, jobs[i], host, fx[i]).end.Succeeded? {
      RunJobsStopsHere(ctx, jobs, host, fx, i);
      LaterEntriesKept(ctx, jobs, host, fx, i);
    } else {
      var next := RunJobsUnfold(ctx, jobs, host, fx, i);
      ExecuteKeepsNames(ctx, jobs, host, fx, i);
      LaterEntriesKept(ctx, jobs, host, fx, i);
      RunJobsLeavesLaterEntries(next, jobs, host, fx, i + 1);
    }
  }

  /** The build: every job in configuration order until the first one that
      does not succeed, whose error (or panic) the build returns. Jobs after
      it are never started and launch nothing. */
  function ExecuteBuild(ctx: BuildContext, config: BuildConfig, host: Result<Env, string>, fx: seq<JobEffects>)
    : (r: BuildRun)
    requires |fx| == |config.jobs|
    ensures var jobs := config.jobs;
            var s := FirstStop(ctx.ws, jobs, host, fx, 0);
            && r.ctx.ws == ctx.ws
            && (forall j :: 0 <= j < s ==> RunJobBody(ctx.ws, jobs[j], host, fx[j]).end.Succeeded?)
            && |r.commands| == (if s < |jobs| then s + 1 else |jobs|)
            && (forall j :: 0 <= j < |r.commands| ==> r.commands[j] == RunJobBody(ctx.ws, jobs[j], host, fx[j]).command)
            && (r.end.Succeeded? <==> s == |jobs|)
            && (s < |jobs| ==> r.end == RunJobBody(ctx.ws, jobs[s], host, fx[s]).end)
  {
    RunJobsAttempted(ctx, config.jobs, host, fx, 0);
    RunJobsEnd(ctx, config.jobs, host, fx, 0);
    RunJobsCommands(ctx, config.jobs, host, fx, 0);
    RunJobs(ctx, config.jobs, host, fx, 0)
  }

  /** From a fresh context with distinctly named jobs, every attempted job's
      entry holds its recorded status and elapsed time, and every job after
      the first failure still reads `NotRun` / `None`. */
  lemma ExecuteBuildStatuses(
    config: BuildConfig, getwd: Result<string, string>, mkdir: Outcome, host: Result<Env, string>, fx: seq<JobEffects>)
    requires |fx| == |config.jobs| && DistinctNames(config.jobs)
    requires NewBuildContext(config, getwd, mkdir).Ok?
    ensures var ctx := NewBuildContext(config, getwd, mkdir).value;
            var r := ExecuteBuild(ctx, config, host, fx);
            var jobs := config.jobs;
            && |r.ctx.statuses| == |jobs|
            && forall j :: 0 <= j < |jobs| ==>
                 r.ctx.statuses[j] == (if j < |r.commands|
                                       then JobStatus(jobs[j].name, RunJobBody(ctx.ws, jobs[j], host, fx[j]).status,
                                                      Measured(fx[j].elapsed))
                                       else JobStatus(jobs[j].name, NotRun, Unmeasured))
  {
    var ctx := NewBuildContext(config, getwd, mkdir).value;
    RunJobsStatuses(ctx, config.jobs, host, fx, 0);
  }

  /** Whatever the job names, every job after the first failure still reads
      `NotRun` / `None` once the build returns. */
  lemma ExecuteBuildLeavesLaterJobsNotRun(
    config: BuildConfig, getwd: Result<string, string>, mkdir: Outcome, host: Result<Env, string>, fx: seq<JobEffects>)
    requires |fx| == |config.jobs|
    requires NewBuildContext(config, getwd, mkdir).Ok?
    ensures var ctx := NewBuildContext(config, getwd, mkdir).value;
            var r := ExecuteBuild(ctx, config, host, fx);
            forall j :: |r.commands| <= j < |config.jobs| ==>
              r.ctx.statuses[j] == JobStatus(config.jobs[j].name, NotRun, Unmeasured)
  {
    var ctx := NewBuildContext(config, getwd, mkdir).value;
    RunJobsLeavesLaterEntries(ctx, config.jobs, host, fx, 0);
  }

  /** Two jobs, the first one's container failing: the build returns that
      error, only the first container is launched, and the report shows the
      first job `Failed` with its elapsed time and the second `NotRun` / `None`. */
  lemma FirstJobFailsExample(
    config: BuildConfig, getwd: Result<string, string>, host: Result<Env, string>, fx: seq<JobEffects>)
    requires |config.jobs| == 2 && config.jobs[0].name != config.jobs[1].name
    requires getwd.Ok? && host.Ok?
    requires |fx| == 2 && fx[0].scriptWrite.Pass? && fx[0].run == Fail("exit status 1")
    ensures var ctx := NewBuildContext(config, getwd, Pass).value;
            var r := ExecuteBuild(ctx, config, host, fx);
            && r.end == Errored("exit status 1")
            && |r.commands| == 1
            && r.ctx.statuses[0] == JobStatus(config.jobs[0].name, Failed, Measured(fx[0].elapsed))
            && r.ctx.statuses[1] == JobStatus(config.jobs[1].name, NotRun, Unmeasured)
  {
    var ctx := NewBuildContext(config, getwd, Pass).value;
    assert FirstStop(ctx.ws, config.jobs, host, fx, 0) == 0;
    ExecuteBuildStatuses(config, getwd, Pass, host, fx);
  }

  /** Two successful jobs sharing a name: both finishes land on the first
      entry, so the second entry still reads `NotRun` after a successful build. */
  lemma DuplicateNamesCollapse(ctx: BuildContext, job: BuildJob, host: Result<Env, string>, fx: seq<JobEffects>)
    requires ctx.statuses == [JobStatus(job.name, NotRun, Unmeasured), JobStatus(job.name, NotRun, Unmeasured)]
    requires host.Ok?
    requires |fx| == 2 && forall i :: 0 <= i < 2 ==> fx[i].scriptWrite.Pass? && fx[i].run.Pass?
    ensures var r := RunJobs(ctx, [job, job], host, fx, 0);
            && r.end == Succeeded
            && r.ctx.statuses[0] == JobStatus(job.name, OK, Measured(fx[1].elapsed))
            && r.ctx.statuses[1] == JobStatus(job.name, NotRun, Unmeasured)
  {
    var run0 := ExecuteDockerJob(ctx, job, host, fx[0]);
    ExecuteDockerJobRecords(ctx, job, host, fx[0]);
    assert IsFirst(ctx.statuses, job.name, 0);
    assert !IsFirst(ctx.statuses, job.name, 1);
    var run1 := ExecuteDockerJob(run0.ctx, job, host, fx[1]);
    ExecuteDockerJobRecords(run0.ctx, job, host, fx[1]);
    assert IsFirst(run0.ctx.statuses, job.name, 0);
    assert !IsFirst(run0.ctx.statuses, job.name, 1);
    assert RunJobs(run1.ctx, [job, job], host, fx, 2) == BuildRun(run1.ctx, Succeeded, []);
    assert RunJobs(run0.ctx, [job, job], host, fx, 1).ctx == run1.ctx;
  }
}

=== FILE: config.dfy ===
/** The parsed build configuration. Reading and parsing the YAML file is not
    modelled; a `BuildConfig` value is taken as given. */
module Config {
  import opened EnvironmentComposer

  /** One job: a container image, the shell lines to run in it, and its own variables. */
  datatype BuildJob = BuildJob(name: string, image: string, scripts: seq<string>, env: Env)

  /** Build-wide variables and the jobs, in the order they run. */
  datatype BuildConfig = BuildConfig(env: Env, jobs: seq<BuildJob>)
}

=== FILE: environment_composer.dfy ===
/** Environment composition: the pure map operations the orchestrator uses to
    compute a job's final environment (`ExpandEnv`, `MergeEnv`, `GetEnvMap`,
    `GetEnvArray` and the four-step resolution in `ExecuteDockerJob`).

    `ExpandEnv` delegates placeholder substitution to Go's `os.Expand`; `Expand`
    below follows that function's grammar: `${NAME}` takes everything up to the
    first `}`, `$NAME` takes the longest run of letters, digits and `_`, a
    single special character (`*#$@!?-` or a digit) is a name on its own,
    `${}` and an unterminated `${` are dropped, and any other `$` is kept. */
module EnvironmentComposer {
  import opened Results

  type Env = map<string, string>

  /** A Go map read: a missing key yields the empty string. */
  function Lookup(m: Env, key: string): string
  {
    if key in m then m[key] else ""
  }

  predicate IsSpecialVar(c: char)
  {
    c in "*#$@!?-" || '0' <= c <= '9'
  }

  predicate IsAlphaNum(c: char)
  {
    c == '_' || '0' <= c <= '9' || 'a' <= c <= 'z' || 'A' <= c <= 'Z'
  }

  /** A name that `$NAME` picks up whole: a letter or `_`, then letters, digits or `_`. */
  predicate IsIdentifier(name: string)
  {
    && |name| > 0
    && (name[0] == '_' || 'a' <= name[0] <= 'z' || 'A' <= name[0] <= 'Z')
    && forall i :: 0 <= i < |name| ==> IsAlphaNum(name[i])
  }

  /** The placeholder name after a `$` and how many characters it occupies. */
  datatype ShellName = ShellName(name: string, width: nat)

  /** Index of the first `}` at or after `i`, or `|t|` when there is none. */
  function BraceClose(t: string, i: nat): (r: nat)
    requires i <= |t|
    ensures i <= r <= |t|
    ensures forall j :: i <= j < r ==> t[j] != '}'
    ensures r < |t| ==> t[r] == '}'
    decreases |t| - i
  {
    if i == |t| then |t| else if t[i] == '}' then i else BraceClose(t, i + 1)
  }

  /** Index of the first non-alphanumeric character at or after `i`, or `|t|`. */
  function AlnumEnd(t: string, i: nat): (r: nat)
    requires i <= |t|
    ensures i <= r <= |t|
    ensures forall j :: i <= j < r ==> IsAlphaNum(t[j])
    ensures r < |t| ==> !IsAlphaNum(t[r])
    decreases |t| - i
  {
    if i == |t| then |t| else if !IsAlphaNum(t[i]) then i else AlnumEnd(t, i + 1)
  }

  /** The name that starts `t`, the text right after a `$`. */
  function GetShellName(t: string): (r: ShellName)
    requires |t| > 0
    ensures r.width <= |t|
    ensures |r.name| > 0 ==> r.width > 0
  {
    if t[0] == '{' then
      if |t| > 2 && IsSpecialVar(t[1]) && t[2] == '}' then ShellName(t[1..2], 3)
      else
        var close := BraceClose(t, 1);
        if close == |t| then ShellName("", 1)       // no closing brace: "${" is dropped
        else if close == 1 then ShellName("", 2)    // "${}" is dropped
        else ShellName(t[1..close], close + 1)
    else if IsSpecialVar(t[0]) then ShellName(t[..1], 1)
    else
      var e := AlnumEnd(t, 0);
      ShellName(t[..e], e)
  }

  /** `s` with every placeholder replaced by its value in `lookup`. */
  function Expand(s: string, lookup: Env): (r: string)
    ensures '$' !in s ==> r == s
    decreases |s|
  {
    if |s| == 0 then ""
    else if s[0] == '$' && |s| > 1 then
      var n := GetShellName(s[1..]);
      var tail := Expand(s[1 + n.width..], lookup);
      if n.name == "" && n.width > 0 then tail
      else if n.name == "" then "$" + tail
      else Lookup(lookup, n.name) + tail
    else [s[0]] + Expand(s[1..], lookup)
  }

  /** Text without a `$` passes through expansion unchanged, and expansion
      carries on after it. */
  lemma {:induction false} ExpandLiteralPrefix(a: string, b: string, lookup: Env)
    requires '$' !in a
    ensures Expand(a + b, lookup) == a + Expand(b, lookup)
    decreases |a|
  {
    if |a| > 0 {
      var s := a + b;
      assert s[0] == a[0];
      assert s[1..] == a[1..] + b;
      ExpandLiteralPrefix(a[1..], b, lookup);
      assert a == [a[0]] + a[1..];
    } else {
      assert a + b == b;
    }
  }

  /** A value without `$` is left unchanged by expansion. */
  lemma ExpandLiteral(s: string, lookup: Env)
    requires '$' !in s
    ensures Expand(s, lookup) == s
  {
    ExpandLiteralPrefix(s, "", lookup);
    assert s + "" == s;
  }

  /** `${NAME}` expands to the looked-up value (empty when the name is missing). */
  lemma ExpandBraced(name: string, rest: string, lookup: Env)
    requires |name| > 0 && '}' !in name
    ensures Expand("${" + name + "}" + rest, lookup) == Lookup(lookup, name) + Expand(rest, lookup)
  {
    var s := "${" + name + "}" + rest;
    var t := s[1..];
    assert t == "{" + name + "}" + rest;
    assert t[|name| + 1] == '}';
    forall j | 1 <= j < |name| + 1
      ensures t[j] != '}'
    {
      assert t[j] == name[j - 1];
    }
    var n := GetShellName(t);
    if |t| > 2 && IsSpecialVar(t[1]) && t[2] == '}' {
      assert |name| == 1;
      assert n == ShellName(name, 3);
    } else {
      assert BraceClose(t, 1) == |name| + 1;
      assert t[1..|name| + 1] == name;
      assert n == ShellName(name, |name| + 2);
    }
    assert s[1 + n.width..] == rest;
  }

  /** `$NAME` expands to the looked-up value when the next character ends the name. */
  lemma ExpandBare(name: string, rest: string, lookup: Env)
    requires IsIdentifier(name)
    requires |rest| == 0 || !IsAlphaNum(rest[0])
    ensures Expand("$" + name + rest, lookup) == Lookup(lookup, name) + Expand(rest, lookup)
  {
    var s := "$" + name + rest;
    var t := s[1..];
    assert t == name + rest;
    assert t[0] == name[0];
    forall j | 0 <= j < |name|
      ensures IsAlphaNum(t[j])
    {
      assert t[j] == name[j];
    }
    if |rest| > 0 {
      assert t[|name|] == rest[0];
    }
    assert AlnumEnd(t, 0) == |name|;
    assert t[..|name|] == name;
    assert GetShellName(t) == ShellName(name, |name|);
    assert s[1 + |name|..] == rest;
  }

  /** A placeholder whose name the lookup lacks becomes the empty string. */
  lemma ExpandMissing(name: string, lookup: Env)
    requires |name| > 0 && '}' !in name && name !in lookup
    ensures Expand("${" + name + "}", lookup) == ""
  {
    ExpandBraced(name, "", lookup);
    assert "${" + name + "}" + "" == "${" + name + "}";
  }

  /** `env` with every value expanded against `other`. */
  function ExpandEnv(env: Env, other: Env): (r: Env)
    ensures r.Keys == env.Keys
    ensures forall k :: k in env ==> r[k] == Expand(env[k], other)
    ensures forall k :: k in env && '$' !in env[k] ==> r[k] == env[k]
  {
    ExpandLiteralValues(env, other);
    map k | k in env :: Expand(env[k], other)
  }

  lemma ExpandLiteralValues(env: Env, other: Env)
    ensures forall k :: k in env && '$' !in env[k] ==> Expand(env[k], other) == env[k]
  {
    forall k | k in env && '$' !in env[k]
      ensures Expand(env[k], other) == env[k]
    {
      ExpandLiteral(env[k], other);
    }
  }

  /** All variables of both environments; on a shared name `env2` wins. */
  function MergeEnv(env1: Env, env2: Env): (r: Env)
    ensures r.Keys == env1.Keys + env2.Keys
    ensures forall k :: k in env2 ==> r[k] == env2[k]
    ensures forall k :: k in env1 && k !in env2 ==> r[k] == env1[k]
  {
    env1 + env2
  }

  /** The four-step resolution of a job's environment: the build env expanded
      against the host env, the job env expanded against that and then against
      the host env, and the two merged with the job winning. */
  function ResolveJobEnv(buildEnv: Env, jobEnv: Env, osEnv: Env): (r: Env)
    ensures r.Keys == buildEnv.Keys + jobEnv.Keys
    ensures forall k :: k in jobEnv ==> r[k] == Expand(Expand(jobEnv[k], ExpandEnv(buildEnv, osEnv)), osEnv)
    ensures forall k :: k in buildEnv && k !in jobEnv ==> r[k] == Expand(buildEnv[k], osEnv)
  {
    var expBuildEnv := ExpandEnv(buildEnv, osEnv);
    var expJobEnv := ExpandEnv(ExpandEnv(jobEnv, expBuildEnv), osEnv);
    MergeEnv(expBuildEnv, expJobEnv)
  }

  /** Layering is one-directional: a build variable the job does not override
      resolves the same whatever the job declares. */
  lemma BuildVarIgnoresJobEnv(buildEnv: Env, job1: Env, job2: Env, osEnv: Env, k: string)
    requires k in buildEnv && k !in job1 && k !in job2
    ensures ResolveJobEnv(buildEnv, job1, osEnv)[k] == ResolveJobEnv(buildEnv, job2, osEnv)[k]
  {
  }

  /** A job variable sees a build variable: a job value `${NAME}rest` whose
      build variable `NAME` and tail `rest` hold no placeholder resolves to the
      build value followed by `rest`, whatever the host holds. */
  lemma JobSeesBuildVar(buildEnv: Env, jobEnv: Env, osEnv: Env, k: string, name: string, rest: string)
    requires k in jobEnv && jobEnv[k] == "${" + name + "}" + rest
    requires |name| > 0 && '}' !in name
    requires name in buildEnv && '$' !in buildEnv[name] && '$' !in rest
    ensures ResolveJobEnv(buildEnv, jobEnv, osEnv)[k] == buildEnv[name] + rest
  {
    var exp := ExpandEnv(buildEnv, osEnv);
    ExpandBraced(name, rest, exp);
    ExpandLiteralPrefix(buildEnv[name], rest, osEnv);
  }

  /** The first pass blanks a job placeholder `${NAME}` that names no build
      variable, so the later pass against the host environment cannot restore
      it: the job sees the empty string even when the host defines `NAME`. */
  lemma HostOnlyVarBlankedInJob(buildEnv: Env, jobEnv: Env, osEnv: Env, k: string, name: string, rest: string)
    requires k in jobEnv && jobEnv[k] == "${" + name + "}" + rest
    requires |name| > 0 && '}' !in name
    requires name !in buildEnv && '$' !in rest
    ensures ResolveJobEnv(buildEnv, jobEnv, osEnv)[k] == rest
  {
    var exp := ExpandEnv(buildEnv, osEnv);
    ExpandBraced(name, rest, exp);
    ExpandLiteral(rest, exp);
    ExpandLiteral(rest, osEnv);
  }

  /** The text before the first occurrence of `c` (all of `s` when there is none). */
  function Before(s: string, c: char): (r: string)
    ensures |r| <= |s| && r == s[..|r|]
    ensures c !in r
    ensures |r| < |s| ==> s[|r|] == c
  {
    if |s| == 0 then "" else if s[0] == c then "" else [s[0]] + Before(s[1..], c)
  }

  /** The `KEY=VALUE` text of one variable. */
  function EnvEntry(key: string, value: string): string
  {
    key + "=" + value
  }

  /** The key of an entry: `strings.Split(e, "=")[0]`. */
  function KeyOf(e: string): (r: string)
    ensures '=' !in r && r <= e
    ensures |r| == |e| <==> '=' !in e
    ensures |r| < |e| ==> e[|r|] == '='
  {
    Before(e, '=')
  }

  /** The value of an entry: `strings.Split(e, "=")[1]`, the text between the
      first `=` and the next one. */
  function ValueOf(e: string): (r: string)
    requires '=' in e
    ensures '=' !in r
    ensures KeyOf(e) + "=" + r <= e
    ensures var n := |KeyOf(e)| + 1 + |r|; n == |e| || e[n] == '='
  {
    var k := KeyOf(e);
    Before(e[|k| + 1..], '=')
  }

  /** No later entry of `entries` has the key of entry `i`. */
  predicate LastWithKey(entries: seq<string>, i: nat)
    requires i < |entries|
  {
    forall j :: i < j < |entries| ==> KeyOf(entries[j]) != KeyOf(entries[i])
  }

  /** `r` is what reading `entries` into a map yields: success exactly when
      every entry has an `=`, failing on the first entry without one; on
      success the keys are the entries' keys and each key holds the value of
      its last entry. */
  predicate IsEnvMapOf(entries: seq<string>, r: Result<Env, string>)
  {
    && (r.Ok? <==> AllSplit(entries))
    && (r.Err? ==> exists i :: 0 <= i < |entries| && entries[i] == r.error && '=' !in entries[i]
                               && forall j :: 0 <= j < i ==> '=' in entries[j])
    && (r.Ok? ==> r.value.Keys == KeysOf(entries))
    && (r.Ok? ==> HoldsLastValues(entries, r.value))
  }

  /** Every entry has an `=`. */
  predicate AllSplit(entries: seq<string>)
  {
    forall i :: 0 <= i < |entries| ==> '=' in entries[i]
  }

  /** The keys of the entries. */
  function KeysOf(entries: seq<string>): set<string>
  {
    set i | 0 <= i < |entries| :: KeyOf(entries[i])
  }

  /** `m` holds, under the key of every entry with an `=`, the value of the
      last entry with that key. */
  predicate HoldsLastValues(entries: seq<string>, m: Env)
  {
    forall i :: 0 <= i < |entries| && '=' in entries[i] && LastWithKey(entries, i)
                ==> KeyOf(entries[i]) in m && m[KeyOf(entries[i])] == ValueOf(entries[i])
  }

  /** The `KEY=VALUE` entries as a map, later entries overwriting earlier ones.
      An entry without `=` makes the source index past the end of the split and
      panic; the model reports that entry instead. */
  function GetEnvMap(entries: seq<string>): (r: Result<Env, string>)
    ensures IsEnvMapOf(entries, r)
    decreases |entries|
  {
    if |entries| == 0 then Ok(map[])
    else
      var n := |entries| - 1;
      var last := entries[n];
      match GetEnvMap(entries[..n])
      case Err(e) =>
        StepAfterError(entries, Err(e));
        Err(e)
      case Ok(m) =>
        if '=' in last then
          StepOk(entries, m);
          Ok(m[KeyOf(last) := ValueOf(last)])
        else
          StepMalformed(entries, m);
          Err(last)
  }

  lemma StepAfterError(entries: seq<string>, prev: Result<Env, string>)
    requires |entries| > 0 && prev.Err?
    requires IsEnvMapOf(entries[..|entries| - 1], prev)
    ensures IsEnvMapOf(entries, prev)
  {
    var init := entries[..|entries| - 1];
    var i :| 0 <= i < |init| && init[i] == prev.error && '=' !in init[i]
             && forall j :: 0 <= j < i ==> '=' in init[j];
    assert forall j :: 0 <= j <= i ==> init[j] == entries[j];
  }

  lemma StepMalformed(entries: seq<string>, m: Env)
    requires |entries| > 0 && '=' !in entries[|entries| - 1]
    requires IsEnvMapOf(entries[..|entries| - 1], Ok(m))
    ensures IsEnvMapOf(entries, Err(entries[|entries| - 1]))
  {
    var init := entries[..|entries| - 1];
    assert forall j :: 0 <= j < |init| ==> init[j] == entries[j];
  }

  lemma StepOk(entries: seq<string>, m: Env)
    requires |entries| > 0 && '=' in entries[|entries| - 1]
    requires IsEnvMapOf(entries[..|entries| - 1], Ok(m))
    ensures IsEnvMapOf(entries, Ok(m[KeyOf(entries[|entries| - 1]) := ValueOf(entries[|entries| - 1])]))
  {
    var n := |entries| - 1;
    var init := entries[..n];
    var last := entries[n];
    assert entries == init + [last];
    StepOkSplit(init, last);
    StepOkKeys(init, last, m);
    StepOkValues(init, last, m);
  }

  lemma StepOkSplit(init: seq<string>, last: string)
    requires AllSplit(init) && '=' in last
    ensures AllSplit(init + [last])
  {
    var entries := init + [last];
    forall i | 0 <= i < |entries|
      ensures '=' in entries[i]
    {
      if i < |init| {
        assert entries[i] == init[i];
      }
    }
  }

  lemma StepOkKeys(init: seq<string>, last: string, m: Env)
    requires m.Keys == KeysOf(init)
    ensures m.Keys + {KeyOf(last)} == KeysOf(init + [last])
  {
    var entries := init + [last];
    forall k | k in m.Keys
      ensures k in KeysOf(entries)
    {
      var i :| 0 <= i < |init| && KeyOf(init[i]) == k;
      assert entries[i] == init[i];
    }
    assert entries[|init|] == last;
    forall i | 0 <= i < |init|
      ensures KeyOf(entries[i]) in m.Keys
    {
      assert entries[i] == init[i];
    }
  }

  lemma StepOkValues(init: seq<string>, last: string, m: Env)
    requires '=' in last && HoldsLastValues(init, m)
    ensures HoldsLastValues(init + [last], m[KeyOf(last) := ValueOf(last)])
  {
    var entries := init + [last];
    var r := m[KeyOf(last) := ValueOf(last)];
    assert entries[|init|] == last;
    forall i | 0 <= i < |entries| && '=' in entries[i] && LastWithKey(entries, i)
      ensures KeyOf(entries[i]) in r && r[KeyOf(entries[i])] == ValueOf(entries[i])
    {
      if i < |init| {
        assert entries[i] == init[i];
        assert KeyOf(init[i]) != KeyOf(last);
        assert LastWithKey(init, i) by {
          forall j | i < j < |init|
            ensures KeyOf(init[j]) != KeyOf(init[i])
          {
            assert entries[j] == init[j];
          }
        }
      }
    }
  }

  /** The value is cut at a second `=`: `"A=b=c"` reads as `A` holding `b`. */
  lemma ValueCutAtSecondEquals()
    ensures GetEnvMap(["A=b=c"]) == Ok(map["A" := "b"])
  {
    var e := "A=b=c";
    assert KeyOf(e) == "A" by {
      assert e[1] == '=';
    }
    assert e[2..] == "b=c";
    assert ValueOf(e) == "b" by {
      assert "b=c"[1] == '=';
    }
    assert ["A=b=c"][..0] == [];
  }

  /** `order` lists every key of a map exactly once: the iteration order Go
      happens to choose for a `range` over the map. */
  ghost predicate Enumerates(order: seq<string>, keys: set<string>)
  {
    && |order| == |keys|
    && forall k :: k in keys <==> k in order
  }

  /** The `KEY=VALUE` entries of `env` in the order `order`. */
  function EnvEntries(env: Env, order: seq<string>): (r: seq<string>)
    requires forall k :: k in order ==> k in env
    ensures |r| == |order|
    ensures forall i :: 0 <= i < |order| ==> r[i] == EnvEntry(order[i], env[order[i]])
  {
    seq(|order|, i requires 0 <= i < |order| => EnvEntry(order[i], env[order[i]]))
  }

  /** The environment as `KEY=VALUE` strings for the container process. The
      source never advances its slot index, so every variable is written to
      slot 0 in turn: the last one iterated stays there and every other slot
      keeps the empty string `make` put in it. */
  function GetEnvArray(env: Env, order: seq<string>): (r: seq<string>)
    requires Enumerates(order, env.Keys)
    ensures |r| == |env|
    ensures |env| > 0 ==> exists k :: k in env && r[0] == EnvEntry(k, env[k])
    ensures forall i :: 1 <= i < |r| ==> r[i] == ""
  {
    var blank := seq(|env|, _ => "");
    FillSlot(blank, 0, env, order)
  }

  /** Writes each variable of `order` into slot `i` of `result`, in turn. */
  function FillSlot(result: seq<string>, i: nat, env: Env, order: seq<string>): (r: seq<string>)
    requires forall k :: k in order ==> k in env
    requires |order| > 0 ==> i < |result|
    ensures |r| == |result|
    ensures forall j :: 0 <= j < |r| && j != i ==> r[j] == result[j]
    ensures |order| > 0 ==> r[i] == EnvEntry(order[|order| - 1], env[order[|order| - 1]])
    ensures |order| == 0 ==> r == result
    decreases |order|
  {
    if |order| == 0 then result
    else FillSlot(result[i := EnvEntry(order[0], env[order[0]])], i, env, order[1..])
  }

  /** Reading back the entries of `env` in any enumeration order recovers
      `env`, provided no key or value contains `=`. */
  lemma {:induction false} EnvEntriesRoundTrip(env: Env, order: seq<string>)
    requires Enumerates(order, env.Keys)
    requires forall k :: k in env ==> '=' !in k && '=' !in env[k]
    ensures GetEnvMap(EnvEntries(env, order)) == Ok(env)
  {
    var entries := EnvEntries(env, order);
    EntriesSplit(env, order);
    var m := ReadAll(entries);
    ReadEntriesIsEnv(entries, order, env, m);
  }

  lemma ReadEntriesIsEnv(entries: seq<string>, order: seq<string>, env: Env, m: Env)
    requires Enumerates(order, env.Keys) && |entries| == |order|
    requires forall i :: 0 <= i < |order| ==>
               && '=' in entries[i] && KeyOf(entries[i]) == order[i]
               && ValueOf(entries[i]) == env[order[i]]
    requires forall k :: k in m <==> exists i :: 0 <= i < |entries| && KeyOf(entries[i]) == k
    requires forall i :: 0 <= i < |entries| && LastWithKey(entries, i) ==> m[KeyOf(entries[i])] == ValueOf(entries[i])
    ensures m == env
  {
    KeysAgree(entries, order, env, m);
    ValuesOfEntries(entries, order, env, m);
    SameEnv(m, env);
  }

  lemma KeysAgree(entries: seq<string>, order: seq<string>, env: Env, m: Env)
    requires Enumerates(order, env.Keys) && |entries| == |order|
    requires forall i :: 0 <= i < |order| ==> KeyOf(entries[i]) == order[i]
    requires forall k :: k in m <==> exists i :: 0 <= i < |entries| && KeyOf(entries[i]) == k
    ensures m.Keys == env.Keys
  {
    KeysOfEntries(entries, order);
    assert forall k :: k in m <==> k in order;
  }

  lemma SameEnv(a: Env, b: Env)
    requires a.Keys == b.Keys
    requires forall k :: k in b ==> a[k] == b[k]
    ensures a == b
  {
  }

  lemma ValuesOfEntries(entries: seq<string>, order: seq<string>, env: Env, m: Env)
    requires |entries| == |order| && m.Keys == env.Keys
    requires forall k :: k in env ==> k in order
    requires forall i :: 0 <= i < |order| ==> order[i] in env
    requires forall i :: 0 <= i < |order| ==>
               && '=' in entries[i] && KeyOf(entries[i]) == order[i]
               && ValueOf(entries[i]) == env[order[i]]
    requires forall i :: 0 <= i < |entries| && LastWithKey(entries, i) ==> m[KeyOf(entries[i])] == ValueOf(entries[i])
    ensures forall k :: k in env ==> m[k] == env[k]
  {
    forall k | k in env
      ensures m[k] == env[k]
    {
      var i := LastIndexOf(order, k);
      assert KeyOf(entries[i]) == k;
      assert LastWithKey(entries, i) by {
        forall j | i < j < |entries|
          ensures KeyOf(entries[j]) != k
        {
          assert KeyOf(entries[j]) == order[j];
        }
      }
      assert m[k] == ValueOf(entries[i]);
    }
  }

  lemma KeysOfEntries(entries: seq<string>, order: seq<string>)
    requires |entries| == |order|
    requires forall i :: 0 <= i < |order| ==> KeyOf(entries[i]) == order[i]
    ensures forall k :: (exists i :: 0 <= i < |entries| && KeyOf(entries[i]) == k) <==> k in order
  {
    forall k | k in order
      ensures exists i :: 0 <= i < |entries| && KeyOf(entries[i]) == k
    {
      var i :| 0 <= i < |order| && order[i] == k;
      assert KeyOf(entries[i]) == k;
    }
  }

  /** Entries that all carry `=` are read successfully, with the contents `IsEnvMapOf` gives. */
  lemma ReadAll(entries: seq<string>) returns (m: Env)
    requires forall i :: 0 <= i < |entries| ==> '=' in entries[i]
    ensures GetEnvMap(entries) == Ok(m)
    ensures forall k :: k in m <==> exists i :: 0 <= i < |entries| && KeyOf(entries[i]) == k
    ensures forall i :: 0 <= i < |entries| && LastWithKey(entries, i) ==> m[KeyOf(entries[i])] == ValueOf(entries[i])
  {
    var r := GetEnvMap(entries);
    assert IsEnvMapOf(entries, r);
    m := r.value;
    assert forall k :: k in KeysOf(entries) <==> exists i :: 0 <= i < |entries| && KeyOf(entries[i]) == k;
  }

  /** Every entry of `env` splits back into its key and value. */
  lemma EntriesSplit(env: Env, order: seq<string>)
    requires forall k :: k in order ==> k in env
    requires forall k :: k in env ==> '=' !in k && '=' !in env[k]
    ensures forall i :: 0 <= i < |order| ==>
              && '=' in EnvEntries(env, order)[i]
              && KeyOf(EnvEntries(env, order)[i]) == order[i]
              && ValueOf(EnvEntries(env, order)[i]) == env[order[i]]
  {
    forall i | 0 <= i < |order|
      ensures '=' in EnvEntries(env, order)[i]
      ensures KeyOf(EnvEntries(env, order)[i]) == order[i]
      ensures ValueOf(EnvEntries(env, order)[i]) == env[order[i]]
    {
      EntryParts(order[i], env[order[i]]);
    }
  }

  /** An entry of a key and a value without `=` splits back into them. */
  lemma EntryParts(key: string, value: string)
    requires '=' !in key && '=' !in value
    ensures '=' in EnvEntry(key, value)
    ensures KeyOf(EnvEntry(key, value)) == key
    ensures ValueOf(EnvEntry(key, value)) == value
  {
    var e := EnvEntry(key, value);
    assert e[|key|] == '=';
    BeforeFree(key + "=" + value, key, '=');
    assert e[|key| + 1..] == value;
    BeforeFree(value, value, '=');
  }

  /** `Before` stops exactly at the first `c`. */
  lemma BeforeFree(s: string, p: string, c: char)
    requires c !in p && p <= s && (|p| == |s| || s[|p|] == c)
    ensures Before(s, c) == p
  {
    var b := Before(s, c);
    assert forall i :: 0 <= i < |p| ==> s[i] == p[i] && s[i] != c;
    assert forall i :: 0 <= i < |b| ==> s[i] == b[i];
    assert |b| == |p|;
  }

  /** The position of the last occurrence of `k` in `order`. */
  function LastIndexOf(order: seq<string>, k: string): (i: nat)
    requires k in order
    ensures i < |order| && order[i] == k
    ensures forall j :: i < j < |order| ==> order[j] != k
  {
    if order[|order| - 1] == k then |order| - 1 else LastIndexOf(order[..|order| - 1], k)
  }

  /** With two or more variables the array the source builds cannot be read
      back: its second slot is empty, an entry without `=`. */
  lemma EnvArrayNotReadable(env: Env, order: seq<string>)
    requires Enumerates(order, env.Keys) && |env| >= 2
    ensures GetEnvMap(GetEnvArray(env, order)) == Err("")
  {
    var a := GetEnvArray(env, order);
    var r := GetEnvMap(a);
    var k :| k in env && a[0] == EnvEntry(k, env[k]);
    assert a[0][|k|] == '=';
    assert a[1] == "";
    var i :| 0 <= i < |a| && a[i] == r.error && '=' !in a[i] && forall j :: 0 <= j < i ==> '=' in a[j];
    assert i == 1;
  }
}

=== FILE: job_status_tracker.dfy ===
/** Per-job status tracking: the run context the orchestrator creates once,
    and the start/finish updates of each job's status entry. Wall-clock time
    is not modelled: the elapsed-time text a finish records is a parameter. */
module JobStatusTracker {
  import opened Results
  import opened Config

  /** A job's terminal state, or `NotRun` while it has not finished. */
  datatype Status = NotRun | OK | Failed | EntryPointCreationError
  {
    /** The text the status report prints. */
    function Text(): string
    {
      match this
      case NotRun => "NotRun"
      case OK => "OK"
      case Failed => "Failed"
      case EntryPointCreationError => "EntryPointCreationError"
    }
  }

  /** How long a job took: `None` until it finishes, then the elapsed-time text. */
  datatype Duration = Unmeasured | Measured(text: string)
  {
    function Text(): string
    {
      if Unmeasured? then "None" else text
    }
  }

  datatype JobStatus = JobStatus(name: string, status: Status, duration: Duration)

  /** The parts of the run context fixed at creation. */
  datatype Workspace = Workspace(
    config: BuildConfig,
    workDir: string,
    tempFolderName: string,
    tempFolder: string,
    dockerWorkDir: string)

  /** The run context: the workspace, the name of the active job and one
      status entry per configured job. */
  datatype BuildContext = BuildContext(ws: Workspace, currentJob: string, statuses: seq<JobStatus>)

  /** Name of the folder, under the working directory, that receives the artifacts. */
  const TempFolderName := ".gobuild"

  /** Where the working directory is mounted inside every container. */
  const DockerWorkDir := "/var/gobuild"

  /** `path.Join(dir, name)` for a clean directory and a single-segment name. */
  function JoinPath(dir: string, name: string): string
  {
    if |dir| == 0 then name
    else if dir[|dir| - 1] == '/' then dir + name
    else dir + "/" + name
  }

  /** Entry `i` of `statuses` belongs to job `i` of `jobs`, and there are as many of each. */
  predicate NamesMatch(statuses: seq<JobStatus>, jobs: seq<BuildJob>)
  {
    |statuses| == |jobs| && forall i :: 0 <= i < |jobs| ==> statuses[i].name == jobs[i].name
  }

  /** The run context for `config`, given the outcome of reading the working
      directory and of creating the artifact folder under it. */
  function NewBuildContext(config: BuildConfig, getwd: Result<string, string>, mkdir: Outcome)
    : (r: Result<BuildContext, string>)
    ensures r.Ok? <==> getwd.Ok? && mkdir.Pass?
    ensures getwd.Err? ==> r == Err(getwd.error)
    ensures getwd.Ok? && mkdir.Fail? ==> r == Err(mkdir.reason)
    ensures r.Ok? ==> var c := r.value;
      && c.ws.config == config
      && c.ws.workDir == getwd.value
      && c.ws.tempFolderName == ".gobuild"
      && c.ws.tempFolder == JoinPath(getwd.value, ".gobuild")
      && c.ws.dockerWorkDir == "/var/gobuild"
      && NamesMatch(c.statuses, config.jobs)
      && forall i :: 0 <= i < |c.statuses| ==> c.statuses[i].status == NotRun && c.statuses[i].duration == Unmeasured
  {
    match getwd
    case Err(e) => Err(e)
    case Ok(workDir) =>
      var ws := Workspace(config, workDir, TempFolderName, JoinPath(workDir, TempFolderName), DockerWorkDir);
      var statuses := seq(|config.jobs|, i requires 0 <= i < |config.jobs| => JobStatus(config.jobs[i].name, NotRun, Unmeasured));
      match mkdir
      case Fail(e) => Err(e)
      case Pass => Ok(BuildContext(ws, "", statuses))
  }

  /** Marks `name` as the active job. */
  function StartJob(ctx: BuildContext, name: string): (r: BuildContext)
    ensures r.currentJob == name
    ensures r.ws == ctx.ws && r.statuses == ctx.statuses
  {
    ctx.(currentJob := name)
  }

  /** Entry `j` is the first entry named `name`. */
  predicate IsFirst(statuses: seq<JobStatus>, name: string, j: nat)
  {
    && j < |statuses|
    && statuses[j].name == name
    && forall i :: 0 <= i < j ==> statuses[i].name != name
  }

  /** Position of the first entry named `name`, or `|statuses|` when none is. */
  function FirstIndexOf(statuses: seq<JobStatus>, name: string): (r: nat)
    ensures r <= |statuses|
    ensures r < |statuses| ==> IsFirst(statuses, name, r)
    ensures r == |statuses| ==> forall i :: 0 <= i < |statuses| ==> statuses[i].name != name
  {
    if |statuses| == 0 then 0
    else if statuses[0].name == name then 0
    else 1 + FirstIndexOf(statuses[1..], name)
  }

  /** Records `status` and the elapsed time on the first entry named after
      the active job (see `FinishJobRecords`); nothing changes when no entry
      has that name, and the active job is not cleared. */
  function FinishJob(ctx: BuildContext, status: Status, elapsed: string): (r: BuildContext)
    ensures r.ws == ctx.ws && r.currentJob == ctx.currentJob
    ensures |r.statuses| == |ctx.statuses|
    ensures (forall j :: 0 <= j < |ctx.statuses| ==> ctx.statuses[j].name != ctx.currentJob) ==> r == ctx
  {
    var i := FirstIndexOf(ctx.statuses, ctx.currentJob);
    if i == |ctx.statuses| then ctx
    else
      var entry := ctx.statuses[i];
      ctx.(statuses := ctx.statuses[i := entry.(status := status, duration := Measured(elapsed))])
  }

  /** Finishing writes the first entry named after the active job and leaves
      every other entry as it was. */
  lemma FinishJobRecords(ctx: BuildContext, status: Status, elapsed: string)
    ensures var r := FinishJob(ctx, status, elapsed);
            forall j :: 0 <= j < |ctx.statuses| ==>
              r.statuses[j] == (if IsFirst(ctx.statuses, ctx.currentJob, j)
                                then JobStatus(ctx.currentJob, status, Measured(elapsed))
                                else ctx.statuses[j])
  {
  }

  /** Finishing never renames an entry, so it keeps entries matched to jobs. */
  lemma FinishKeepsNames(ctx: BuildContext, jobs: seq<BuildJob>, status: Status, elapsed: string)
    requires NamesMatch(ctx.statuses, jobs)
    ensures NamesMatch(FinishJob(ctx, status, elapsed).statuses, jobs)
  {
  }
}

=== FILE: lines.dfy ===
/** Splitting a stream into separator-terminated lines.

    Both log writers buffer bytes until a newline and then emit the buffered
    line; the generated entry-point script and env file are newline-terminated
    line sequences. This module holds the one notion of "line" they share. */
module Lines {

  /** Number of occurrences of `x` in `s`. */
  function Count<T(==)>(x: T, s: seq<T>): nat
  {
    if |s| == 0 then 0 else (if s[0] == x then 1 else 0) + Count(x, s[1..])
  }

  /** The text occupied by `lines`, each one followed by `sep`. */
  function Terminated<T>(sep: T, lines: seq<seq<T>>): seq<T>
  {
    if |lines| == 0 then [] else lines[0] + [sep] + Terminated(sep, lines[1..])
  }

  /** No line contains the separator. */
  predicate AllFree<T(==)>(sep: T, lines: seq<seq<T>>)
  {
    forall i :: 0 <= i < |lines| ==> sep !in lines[i]
  }

  /** The completed lines found in a stream and the unterminated remainder. */
  datatype Split<T> = Split(lines: seq<seq<T>>, rest: seq<T>)

  /** Feeds `p` element by element into a line buffer that already holds
      `line`: a separator completes the buffered line and empties the buffer,
      anything else is appended to it. */
  function Feed<T(==)>(sep: T, line: seq<T>, p: seq<T>): (r: Split<T>)
    ensures |r.lines| == Count(sep, p)
    ensures Terminated(sep, r.lines) + r.rest == line + p
    ensures sep !in line ==> sep !in r.rest && AllFree(sep, r.lines)
    decreases |p|
  {
    if |p| == 0 then
      assert line + p == line;
      Split([], line)
    else if p[0] == sep then
      var tail := Feed(sep, [], p[1..]);
      FeedLineDone(sep, line, tail.lines, tail.rest, p);
      Split([line] + tail.lines, tail.rest)
    else
      var r := Feed(sep, line + [p[0]], p[1..]);
      assert line + [p[0]] + p[1..] == line + p;
      r
  }

  /** The step of `Feed` at a separator: the buffered line becomes the first
      completed line in front of the lines found in the rest of the stream. */
  lemma FeedLineDone<T>(sep: T, line: seq<T>, lines: seq<seq<T>>, rest: seq<T>, p: seq<T>)
    requires |p| > 0 && p[0] == sep
    requires Terminated(sep, lines) + rest == [] + p[1..]
    ensures Terminated(sep, [line] + lines) + rest == line + p
    ensures sep !in line && AllFree(sep, lines) ==> AllFree(sep, [line] + lines)
  {
    TerminatedCons(sep, line, lines);
    assert [] + p[1..] == p[1..];
    assert [sep] + p[1..] == p;
    assert line + [sep] + Terminated(sep, lines) + rest == line + ([sep] + p[1..]);
  }

  lemma TerminatedCons<T>(sep: T, x: seq<T>, rest: seq<seq<T>>)
    ensures Terminated(sep, [x] + rest) == x + [sep] + Terminated(sep, rest)
  {
    assert ([x] + rest)[1..] == rest;
  }

  lemma {:induction false} TerminatedAppend<T>(sep: T, a: seq<seq<T>>, b: seq<seq<T>>)
    ensures Terminated(sep, a + b) == Terminated(sep, a) + Terminated(sep, b)
    decreases |a|
  {
    if |a| == 0 {
      assert a + b == b;
    } else {
      assert (a + b)[1..] == a[1..] + b;
      TerminatedAppend(sep, a[1..], b);
    }
  }

  /** In `a + [sep] + x` with `a` separator-free, the first separator sits at `|a|`. */
  lemma FirstSepAt<T>(sep: T, a: seq<T>, x: seq<T>)
    requires sep !in a
    ensures (a + [sep] + x)[|a|] == sep
    ensures forall i :: 0 <= i < |a| ==> (a + [sep] + x)[i] != sep
  {
    forall i | 0 <= i < |a|
      ensures (a + [sep] + x)[i] != sep
    {
      assert (a + [sep] + x)[i] == a[i];
    }
  }

  /** The first separator of a stream ends its first line. */
  lemma SameFirstLine<T>(sep: T, a: seq<T>, x: seq<T>, b: seq<T>, y: seq<T>)
    requires sep !in a && sep !in b
    requires a + [sep] + x == b + [sep] + y
    ensures a == b && x == y
  {
    var s := a + [sep] + x;
    FirstSepAt(sep, a, x);
    FirstSepAt(sep, b, y);
    assert |a| == |b|;
    assert a == s[..|a|] == b;
    assert x == s[|a| + 1..] == y;
  }

  /** A non-empty run of terminated lines contains the separator. */
  lemma TerminatedHasSep<T>(sep: T, lines: seq<seq<T>>, rest: seq<T>)
    requires |lines| > 0
    ensures sep in Terminated(sep, lines) + rest
  {
    var s := Terminated(sep, lines) + rest;
    assert s[|lines[0]|] == sep;
  }

  /** A stream splits into separator-free terminated lines and a
      separator-free remainder in at most one way. */
  lemma {:induction false} SplitUnique<T>(sep: T, l1: seq<seq<T>>, r1: seq<T>, l2: seq<seq<T>>, r2: seq<T>)
    requires AllFree(sep, l1) && sep !in r1
    requires AllFree(sep, l2) && sep !in r2
    requires Terminated(sep, l1) + r1 == Terminated(sep, l2) + r2
    ensures l1 == l2 && r1 == r2
    decreases |l1|
  {
    if |l1| == 0 && |l2| == 0 {
      assert Terminated(sep, l1) == [] == Terminated(sep, l2);
      assert [] + r1 == r1 && [] + r2 == r2;
    } else if |l1| == 0 {
      TerminatedHasSep(sep, l2, r2);
      assert false;
    } else if |l2| == 0 {
      TerminatedHasSep(sep, l1, r1);
      assert false;
    } else {
      var x := Terminated(sep, l1[1..]) + r1;
      var y := Terminated(sep, l2[1..]) + r2;
      assert Terminated(sep, l1) == l1[0] + [sep] + Terminated(sep, l1[1..]);
      assert Terminated(sep, l2) == l2[0] + [sep] + Terminated(sep, l2[1..]);
      assert Terminated(sep, l1) + r1 == l1[0] + [sep] + x;
      assert Terminated(sep, l2) + r2 == l2[0] + [sep] + y;
      SameFirstLine(sep, l1[0], x, l2[0], y);
      SplitUnique(sep, l1[1..], r1, l2[1..], r2);
      assert l1 == [l1[0]] + l1[1..];
      assert l2 == [l2[0]] + l2[1..];
    }
  }

  /** Feeding a stream in two pieces finds the same lines, and leaves the
      same remainder, as feeding it at once. */
  lemma {:induction false} FeedConcat<T>(sep: T, line: seq<T>, a: seq<T>, b: seq<T>)
    requires sep !in line
    ensures Feed(sep, line, a + b).lines
            == Feed(sep, line, a).lines + Feed(sep, Feed(sep, line, a).rest, b).lines
    ensures Feed(sep, line, a + b).rest == Feed(sep, Feed(sep, line, a).rest, b).rest
  {
    var s1 := Feed(sep, line, a);
    var s2 := Feed(sep, s1.rest, b);
    var s := Feed(sep, line, a + b);
    TerminatedAppend(sep, s1.lines, s2.lines);
    calc {
      Terminated(sep, s1.lines + s2.lines) + s2.rest;
      Terminated(sep, s1.lines) + (Terminated(sep, s2.lines) + s2.rest);
      Terminated(sep, s1.lines) + (s1.rest + b);
      (Terminated(sep, s1.lines) + s1.rest) + b;
      line + a + b;
    }
    assert line + a + b == line + (a + b);
    assert AllFree(sep, s1.lines + s2.lines) by {
      forall i | 0 <= i < |s1.lines + s2.lines|
        ensures sep !in (s1.lines + s2.lines)[i]
      {
        if i < |s1.lines| {
          assert (s1.lines + s2.lines)[i] == s1.lines[i];
        } else {
          assert (s1.lines + s2.lines)[i] == s2.lines[i - |s1.lines|];
        }
      }
    }
    SplitUnique(sep, s.lines, s.rest, s1.lines + s2.lines, s2.rest);
  }

  /** Separator-free lines, once terminated, are read back exactly. */
  lemma {:induction false} FeedTerminated<T>(sep: T, lines: seq<seq<T>>)
    requires AllFree(sep, lines)
    ensures Feed(sep, [], Terminated(sep, lines)) == Split(lines, [])
  {
    var s := Feed(sep, [], Terminated(sep, lines));
    assert Terminated(sep, lines) + [] == [] + Terminated(sep, lines);
    SplitUnique(sep, s.lines, s.rest, lines, []);
  }

  /** Feeding one more element either completes the buffered line (a
      separator) or extends it; this holds whatever the buffer started with. */
  lemma {:induction false} FeedSnoc<T>(sep: T, line: seq<T>, p: seq<T>, x: T)
    ensures var s := Feed(sep, line, p);
            Feed(sep, line, p + [x])
            == if x == sep then Split(s.lines + [s.rest], []) else Split(s.lines, s.rest + [x])
    decreases |p|
  {
    if |p| == 0 {
      assert p + [x] == [x];
      assert [x][1..] == [];
      if x == sep {
        assert Feed(sep, line, [x]) == Split([line] + [], []);
      }
    } else {
      assert (p + [x])[0] == p[0];
      assert (p + [x])[1..] == p[1..] + [x];
      if p[0] == sep {
        FeedSnoc(sep, [], p[1..], x);
        var t := Feed(sep, [], p[1..]);
        if x == sep {
          assert [line] + (t.lines + [t.rest]) == ([line] + t.lines) + [t.rest];
        } else {
          assert [line] + t.lines == [line] + t.lines;
        }
      } else {
        FeedSnoc(sep, line + [p[0]], p[1..], x);
      }
    }
  }

  lemma {:induction false} CountAbsent<T>(x: T, s: seq<T>)
    requires x !in s
    ensures Count(x, s) == 0
    decreases |s|
  {
    if |s| > 0 {
      assert s[0] != x;
      assert forall i :: 0 <= i < |s[1..]| ==> s[1..][i] == s[i + 1];
      CountAbsent(x, s[1..]);
    }
  }
}

=== FILE: log_redirector.dfy ===
/** The container's output redirector: an `io.Writer` that buffers bytes and
    emits one prefixed log record per completed line. Stdout and stderr of a
    job's container share one writer. */
module LogRedirector {
  import opened Results
  import Lines

  newtype byte = x: int | 0 <= x < 256

  const NEWLINE: byte := 10

  /** The text of a byte line: byte `b` becomes the character with code `b`. */
  function AsText(line: seq<byte>): (t: string)
    ensures |t| == |line|
    ensures forall i :: 0 <= i < |line| ==> t[i] as int == line[i] as int
  {
    if |line| == 0 then "" else [(line[0] as int) as char] + AsText(line[1..])
  }

  /** The writer's state: the record prefix and the bytes of the unfinished line. */
  datatype LogWriter = LogWriter(prefix: string, currentLine: seq<byte>)
  {
    /** The buffer never holds a newline; every reachable writer satisfies this. */
    predicate Valid()
    {
      NEWLINE !in currentLine
    }
  }

  /** A fresh writer: no prefix and an empty buffer. */
  const NewLogWriter := LogWriter("", [])

  /** Tags a writer with a job name. */
  function SetDockerJobName(w: LogWriter, name: string): (r: LogWriter)
    ensures r.prefix == "DOCKER " + name + " | "
    ensures r.currentLine == w.currentLine
  {
    w.(prefix := "DOCKER " + name + " | ")
  }

  /** The log record for one completed line. */
  function Record(prefix: string, line: seq<byte>): string
  {
    prefix + AsText(line)
  }

  function Records(prefix: string, lines: seq<seq<byte>>): (r: seq<string>)
    ensures |r| == |lines|
    ensures forall i :: 0 <= i < |lines| ==> r[i] == Record(prefix, lines[i])
  {
    if |lines| == 0 then [] else [Record(prefix, lines[0])] + Records(prefix, lines[1..])
  }

  lemma {:induction false} RecordsAppend(prefix: string, a: seq<seq<byte>>, b: seq<seq<byte>>)
    ensures Records(prefix, a + b) == Records(prefix, a) + Records(prefix, b)
  {
    var r := Records(prefix, a + b);
    var q := Records(prefix, a) + Records(prefix, b);
    assert |r| == |q|;
    forall i | 0 <= i < |r|
      ensures r[i] == q[i]
    {
      if i < |a| {
        assert (a + b)[i] == a[i];
      } else {
        assert (a + b)[i] == b[i - |a|];
      }
    }
  }

  /** The writer after a `Write`, the records it emitted in order, and the
      returned byte count and error. */
  datatype WriteResult = WriteResult(writer: LogWriter, records: seq<string>, n: int, err: Option<string>)

  /** `Write(p)`: every byte of `p` is accepted; one record is emitted per
      newline, holding the buffered bytes before it, and the bytes after the
      last newline stay buffered. */
  function Write(w: LogWriter, p: seq<byte>): (r: WriteResult)
    ensures r.n == |p| && r.err == None
    ensures r.writer.prefix == w.prefix
    ensures |r.records| == Lines.Count(NEWLINE, p)
    ensures w.Valid() ==> r.writer.Valid()
    ensures exists lines: seq<seq<byte>> ::
              && Lines.Terminated(NEWLINE, lines) + r.writer.currentLine == w.currentLine + p
              && r.records == Records(w.prefix, lines)
  {
    var s := Lines.Feed(NEWLINE, w.currentLine, p);
    WriteResult(w.(currentLine := s.rest), Records(w.prefix, s.lines), |p|, None)
  }

  /** The records of a `Write` are determined by the stream alone: any way of
      cutting the buffered bytes plus `p` into newline-free lines followed by a
      newline-free remainder yields exactly the emitted records and the new buffer. */
  lemma WriteDeterminesRecords(w: LogWriter, p: seq<byte>, lines: seq<seq<byte>>, rest: seq<byte>)
    requires w.Valid()
    requires Lines.AllFree(NEWLINE, lines) && NEWLINE !in rest
    requires Lines.Terminated(NEWLINE, lines) + rest == w.currentLine + p
    ensures Write(w, p).records == Records(w.prefix, lines)
    ensures Write(w, p).writer.currentLine == rest
  {
    var s := Lines.Feed(NEWLINE, w.currentLine, p);
    Lines.SplitUnique(NEWLINE, s.lines, s.rest, lines, rest);
  }

  /** The byte loop of `Write`, as the writer runs it. */
  method WriteBytes(w: LogWriter, p: seq<byte>) returns (r: WriteResult)
    ensures r == Write(w, p)
  {
    var records: seq<string> := [];
    var current := w.currentLine;
    ghost var lines: seq<seq<byte>> := [];
    var k := 0;
    while k < |p|
      invariant 0 <= k <= |p|
      invariant Lines.Feed(NEWLINE, w.currentLine, p[..k]) == Lines.Split(lines, current)
      invariant records == Records(w.prefix, lines)
    {
      Lines.FeedSnoc(NEWLINE, w.currentLine, p[..k], p[k]);
      assert p[..k + 1] == p[..k] + [p[k]];
      if p[k] == NEWLINE {
        RecordsAppend(w.prefix, lines, [current]);
        records := records + [Record(w.prefix, current)];
        lines := lines + [current];
        current := [];
      } else {
        current := current + [p[k]];
      }
      k := k + 1;
    }
    assert p[..k] == p;
    r := WriteResult(w.(currentLine := current), records, |p|, None);
  }

  /** Writing a stream in two chunks emits the same records, in the same
      order, and leaves the same buffer as writing it at once; in particular
      stdout and stderr chunks sharing one writer never split a line's record. */
  lemma ChunkingInvariance(w: LogWriter, a: seq<byte>, b: seq<byte>)
    requires w.Valid()
    ensures var first := Write(w, a);
            var second := Write(first.writer, b);
            && first.records + second.records == Write(w, a + b).records
            && second.writer == Write(w, a + b).writer
  {
    var s1 := Lines.Feed(NEWLINE, w.currentLine, a);
    Lines.FeedConcat(NEWLINE, w.currentLine, a, b);
    RecordsAppend(w.prefix, s1.lines, Lines.Feed(NEWLINE, s1.rest, b).lines);
  }

  /** A job writer fed `A\nB\n` emits `DOCKER j | A` and `DOCKER j | B`;
      a following write of `C` alone emits nothing and leaves `C` buffered.
      In general `Write` emits one record per newline. */
  lemma JobWriterExample()
    ensures var w := SetDockerJobName(NewLogWriter, "j");
            var first := Write(w, [65, 10, 66, 10]);
            var second := Write(first.writer, [67]);
            && first.records == ["DOCKER j | A", "DOCKER j | B"]
            && second.records == []
            && second.writer.currentLine == [67]
  {
    var w := SetDockerJobName(NewLogWriter, "j");
    var a: seq<byte> := [65];
    var b: seq<byte> := [66];
    var lines := [a, b];
    assert Lines.Terminated(NEWLINE, lines) == [65, 10, 66, 10] by {
      Lines.TerminatedCons(NEWLINE, a, [b]);
      Lines.TerminatedCons(NEWLINE, b, []);
    }
    WriteDeterminesRecords(w, [65, 10, 66, 10], lines, []);
    assert AsText(a) == "A" && AsText(b) == "B";
    var rs := Records(w.prefix, lines);
    assert rs[0] == "DOCKER j | A" && rs[1] == "DOCKER j | B";
    var first := Write(w, [65, 10, 66, 10]);
    WriteDeterminesRecords(first.writer, [67], [], [67]);
  }
}

=== FILE: results.dfy ===
/** Failure-carrying datatypes used to model Go's `(value, error)` returns,
    panics and the abstract outcome of an I/O step. */
module Results {

  /** A value that may be absent. */
  datatype Option<+T> = None | Some(value: T)

  /** A value, or the error that stopped it from being computed. */
  datatype Result<+T, +E> = Ok(value: T) | Err(error: E)

  /** The outcome of an effect the model does not perform itself
      (a file write, a directory creation, a subprocess run). */
  datatype Outcome = Pass | Fail(reason: string)
}

=== FILE: script_materializer.dfy ===
/** The text of the artifacts generated for each job: the file names, the
    entry-point script the container starts with, and the env file. Writing
    them to disk is not modelled; only their names and contents are. */
module ScriptMaterializer {
  import opened EnvironmentComposer
  import opened Config
  import Lines
  import opened Results

  /** `strings.ReplaceAll(name, " ", "-")`: the job name as a file-name token. */
  function Sanitize(name: string): (r: string)
    ensures |r| == |name|
    ensures ' ' !in r
    ensures forall i :: 0 <= i < |name| ==> r[i] == (if name[i] == ' ' then '-' else name[i])
  {
    if |name| == 0 then ""
    else [if name[0] == ' ' then '-' else name[0]] + Sanitize(name[1..])
  }

  /** Sanitising twice is sanitising once. */
  lemma SanitizeIdempotent(name: string)
    ensures Sanitize(Sanitize(name)) == Sanitize(name)
  {
  }

  /** Distinct job names can share a token, and so share artifact files. */
  lemma SanitizeCollision()
    ensures "a b" != "a-b" && Sanitize("a b") == Sanitize("a-b")
  {
    assert Sanitize("a b") == "a-b";
    assert Sanitize("a-b") == "a-b";
  }

  /** The entry-point script's file name: the sanitised job name and `.sh`. */
  function EntryPointScriptName(job: BuildJob): (r: string)
    ensures ' ' !in r
    ensures |r| == |job.name| + 3 && r[|job.name|..] == ".sh"
    ensures forall i :: 0 <= i < |job.name| ==> r[i] == (if job.name[i] == ' ' then '-' else job.name[i])
  {
    Sanitize(job.name) + ".sh"
  }

  /** The env file's file name: the sanitised job name and `.env`. */
  function EnvFileName(job: BuildJob): (r: string)
    ensures ' ' !in r
    ensures |r| == |job.name| + 4 && r[|job.name|..] == ".env"
    ensures forall i :: 0 <= i < |job.name| ==> r[i] == (if job.name[i] == ' ' then '-' else job.name[i])
  {
    Sanitize(job.name) + ".env"
  }

  /** Both artifacts of a job share one stem, and jobs whose names sanitise
      alike get the very same artifact names. */
  lemma ArtifactNamesShareStem(a: BuildJob, b: BuildJob)
    ensures EntryPointScriptName(a)[..|a.name|] == EnvFileName(a)[..|a.name|]
    ensures Sanitize(a.name) == Sanitize(b.name)
            ==> EntryPointScriptName(a) == EntryPointScriptName(b) && EnvFileName(a) == EnvFileName(b)
  {
    assert EntryPointScriptName(a)[..|a.name|] == Sanitize(a.name);
    assert EnvFileName(a)[..|a.name|] == Sanitize(a.name);
  }

  /** The echoed trace of a command, then the command. */
  function Step(script: string): string
  {
    "echo /# " + script + "\n" + script + "\n"
  }

  /** The steps of all commands, in order. */
  function Steps(scripts: seq<string>): (r: string)
    ensures |r| == 0 || r[|r| - 1] == '\n'
  {
    if |scripts| == 0 then "" else Step(scripts[0]) + Steps(scripts[1..])
  }

  /** The lines the steps occupy: a trace line and the command, per command. */
  function StepLines(scripts: seq<string>): (r: seq<string>)
    ensures |r| == 2 * |scripts|
    ensures forall i :: 0 <= i < |scripts| ==> r[2 * i] == "echo /# " + scripts[i] && r[2 * i + 1] == scripts[i]
  {
    if |scripts| == 0 then []
    else
      var tail := StepLines(scripts[1..]);
      var r := ["echo /# " + scripts[0], scripts[0]] + tail;
      assert forall i :: 1 <= i < |scripts| ==> r[2 * i] == tail[2 * (i - 1)] && r[2 * i + 1] == tail[2 * (i - 1) + 1];
      r
  }

  /** The four lines that open every script, each newline-terminated. */
  function Header(dockerWorkDir: string): string
  {
    "#!/bin/sh\n" + "set -e\n" + "echo /# cd " + dockerWorkDir + "\n" + "cd " + dockerWorkDir + "\n"
  }

  /** The entry-point script: shebang, `set -e`, a traced `cd` into the
      mount path, then every command traced and run, in order. */
  function EntryPointScript(dockerWorkDir: string, job: BuildJob): (r: string)
    ensures "#!/bin/sh\nset -e\n" <= r
    ensures r[|r| - 1] == '\n'
  {
    var header := Header(dockerWorkDir);
    assert header[..17] == "#!/bin/sh\nset -e\n";
    header + Steps(job.scripts)
  }

  /** The header's lines, without their terminators. */
  function HeaderLines(dockerWorkDir: string): seq<string>
  {
    ["#!/bin/sh", "set -e", "echo /# cd " + dockerWorkDir, "cd " + dockerWorkDir]
  }

  /** The lines of the entry-point script, without their terminators. */
  function ScriptLines(dockerWorkDir: string, scripts: seq<string>): seq<string>
  {
    HeaderLines(dockerWorkDir) + StepLines(scripts)
  }

  /** Steps are the step lines, newline-terminated. */
  lemma {:induction false} StepsAreLines(scripts: seq<string>)
    ensures Steps(scripts) == Lines.Terminated('\n', StepLines(scripts))
    decreases |scripts|
  {
    if |scripts| > 0 {
      var s := scripts[0];
      var tail := StepLines(scripts[1..]);
      StepsAreLines(scripts[1..]);
      var lines := ["echo /# " + s, s] + tail;
      assert lines[1..] == [s] + tail;
      assert lines[1..][1..] == tail;
      assert Lines.Terminated('\n', lines)
             == ("echo /# " + s) + "\n" + (s + "\n" + Lines.Terminated('\n', tail));
    }
  }

  /** Four lines, the last two ending in `w`, terminated one by one: the
      shape every script header has. */
  lemma HeaderShape<T>(sep: T, first: seq<T>, second: seq<T>, trace: seq<T>, cd: seq<T>, w: seq<T>)
    ensures Lines.Terminated(sep, [first, second, trace + w, cd + w])
            == (first + [sep]) + (second + [sep]) + trace + w + [sep] + cd + w + [sep]
  {
    var ls := [first, second, trace + w, cd + w];
    Lines.TerminatedCons(sep, cd + w, []);
    Lines.TerminatedCons(sep, trace + w, [cd + w]);
    assert ls[2..] == [trace + w] + [cd + w];
    Lines.TerminatedCons(sep, second, ls[2..]);
    assert ls[1..] == [second] + ls[2..];
    Lines.TerminatedCons(sep, first, ls[1..]);
    assert ls == [first] + ls[1..];
  }

  lemma HeaderIsLines(dockerWorkDir: string)
    ensures Header(dockerWorkDir) == Lines.Terminated('\n', HeaderLines(dockerWorkDir))
  {
    HeaderShape('\n', "#!/bin/sh", "set -e", "echo /# cd ", "cd ", dockerWorkDir);
    assert "#!/bin/sh\n" == "#!/bin/sh" + ['\n'];
    assert "set -e\n" == "set -e" + ['\n'];
  }

  lemma ScriptLinesFree(dockerWorkDir: string, scripts: seq<string>)
    requires '\n' !in dockerWorkDir
    requires forall i :: 0 <= i < |scripts| ==> '\n' !in scripts[i]
    ensures Lines.AllFree('\n', ScriptLines(dockerWorkDir, scripts))
  {
    var lines := ScriptLines(dockerWorkDir, scripts);
    var steps := StepLines(scripts);
    forall i | 0 <= i < |lines|
      ensures '\n' !in lines[i]
    {
      if i >= 4 {
        var j := (i - 4) / 2;
        assert lines[i] == steps[i - 4];
        if (i - 4) % 2 == 0 {
          assert steps[2 * j] == "echo /# " + scripts[j];
        } else {
          assert steps[2 * j + 1] == scripts[j];
        }
      }
    }
  }

  /** Read line by line (as the log redirector reads the container's output),
      the script is exactly its header lines followed by a trace line and the
      command for each command, provided no command and not the mount path
      contains a newline. */
  lemma EntryPointScriptLines(dockerWorkDir: string, job: BuildJob)
    requires '\n' !in dockerWorkDir
    requires forall i :: 0 <= i < |job.scripts| ==> '\n' !in job.scripts[i]
    ensures Lines.Feed('\n', "", EntryPointScript(dockerWorkDir, job))
            == Lines.Split(ScriptLines(dockerWorkDir, job.scripts), "")
  {
    StepsAreLines(job.scripts);
    HeaderIsLines(dockerWorkDir);
    Lines.TerminatedAppend('\n', HeaderLines(dockerWorkDir), StepLines(job.scripts));
    ScriptLinesFree(dockerWorkDir, job.scripts);
    Lines.FeedTerminated('\n', ScriptLines(dockerWorkDir, job.scripts));
  }

  /** The env-file line of every variable, in the order `order`. */
  function EnvFileContent(env: Env, order: seq<string>): string
    requires forall k :: k in order ==> k in env
  {
    if |order| == 0 then ""
    else EnvEntry(order[0], env[order[0]]) + "\r\n" + EnvFileContent(env, order[1..])
  }

  /** The env file's lines without their `\n`: each `KEY=VALUE` entry and the `\r`. */
  function EnvFileLines(env: Env, order: seq<string>): (r: seq<string>)
    requires forall k :: k in order ==> k in env
    ensures |r| == |order|
    ensures forall i :: 0 <= i < |order| ==> r[i] == EnvEntries(env, order)[i] + "\r"
  {
    var entries := EnvEntries(env, order);
    seq(|order|, i requires 0 <= i < |order| => entries[i] + "\r")
  }

  lemma {:induction false} EnvFileIsLines(env: Env, order: seq<string>)
    requires forall k :: k in order ==> k in env
    ensures EnvFileContent(env, order) == Lines.Terminated('\n', EnvFileLines(env, order))
    decreases |order|
  {
    if |order| > 0 {
      EnvFileIsLines(env, order[1..]);
      var lines := EnvFileLines(env, order);
      assert lines[1..] == EnvFileLines(env, order[1..]);
      assert lines[0] == EnvEntry(order[0], env[order[0]]) + "\r";
    }
  }

  /** The env file holds one CRLF-terminated line per variable, and stripping
      the `\r` and reading the lines back as `KEY=VALUE` entries recovers the
      environment when no key or value holds `=` or a newline. */
  lemma EnvFileReadsBack(env: Env, order: seq<string>)
    requires Enumerates(order, env.Keys)
    requires forall k :: k in env ==> '\n' !in k && '\n' !in env[k]
    ensures var split := Lines.Feed('\n', "", EnvFileContent(env, order));
            && split.rest == ""
            && |split.lines| == |env|
            && forall i :: 0 <= i < |split.lines| ==>
                 split.lines[i] == EnvEntry(order[i], env[order[i]]) + "\r"
    ensures (forall k :: k in env ==> '=' !in k && '=' !in env[k])
            ==> GetEnvMap(EnvEntries(env, order)) == Ok(env)
  {
    var lines := EnvFileLines(env, order);
    EnvFileIsLines(env, order);
    assert Lines.AllFree('\n', lines) by {
      forall i | 0 <= i < |lines|
        ensures '\n' !in lines[i]
      {
        assert order[i] in env;
        assert lines[i] == order[i] + "=" + env[order[i]] + "\r";
      }
    }
    Lines.FeedTerminated('\n', lines);
    if forall k :: k in env ==> '=' !in k && '=' !in env[k] {
      EnvEntriesRoundTrip(env, order);
    }
  }
}
